=== FILE: README.md ===
# Tailnet coordinator bookkeeping and workspace schedule forms, in Dafny

This project models four pieces of Coder.

The first is the bookkeeping of the PostgreSQL-backed tailnet coordinator (`pgcoord`):
- the tunneler's cache of the latest request per tunnel;
- the binder's cache of the latest binding per peer;
- the mapper, which resolves the best mapping per peer and computes the peer updates to send;
- the keyed work queue that coalesces repeated keys and runs at most one job per key;
- the heartbeat tracker: which coordinators are trusted, when they expire, and the failed-beat counter that marks this coordinator unhealthy and healthy again;
- the parsers of the pubsub notification messages.

The other three are front-end rules:
- the workspace schedule form: its validation rules, the autostart and autostop switches, and the "no shutdown" description of a zero TTL;
- the template page's previews of which workspaces a dormancy policy would make dormant or delete;
- the provisioner-tag popover: its key/value rules and its list of displayed tags.

Everything is modelled as pure functions over immutable values:
- Go maps become Dafny maps.
- Slices and JavaScript arrays become sequences.
- UUIDs are a 128-bit newtype with `Nil` as 0.
- Times and durations are integer nanoseconds (Go) or milliseconds (JavaScript).
- JavaScript numbers in the schedule form are reals.

Where the source blocks, reads the clock or calls an outside library, the model takes the outcome as a parameter:
- `acquire`'s wait becomes a `Blocked` result.
- Context cancellation is a `canceled` flag.
- `uuid.Parse` is a `parse` function.
- The time zone lookup is a `resolves` predicate.
- The outcome of the heartbeat upsert is a `BeatOutcome`.

The form library reports, for each field, the message of the first failing test. For the schedule form this is declaration order. For the tag value, the form hands an empty field to the schema as absent. The `oneOf` membership test on a `scope` tag lets an absent value pass, and `required` rejects it. So an empty value always gets "Required", and the scope message is only for a non-empty value outside `organization` and `scope`. Each field's error function states this directly. `ScheduleForm.AtMostOneFailure` shows that for the start time and the TTL at most one test can fail at a time.

The tag validator accepts the values `organization` and `scope` for the key `scope`, although its message says `'organization' or 'user'`. The model keeps the code as written. `ProvisionerTags.ScopeUserRejected` shows that the value `user` is rejected.

Modules, one per file:
- `Wrappers`: `Option`, `Result`.
- `Strings`: `strings.Split` on one separator character, with the counting and searching it needs.
- `Seqs`: order-preserving filter and subsequence.
- `TailnetTypes`.
- `Tunneler`, `Binder`, `Heartbeats`, `Mapper`, `WorkQueue`, `Messages`.
- `ScheduleForm`, `Dormancy`, `ProvisionerTags`.

## Model

| member | source | states |
|---|---|---|
| Tunneler.Cache | enterprise/tailnet/pgcoord.go:348-368 | caching keeps every request under its own key with no empty inner map, and leaves every other source untouched |
| Tunneler.RetrieveCached | enterprise/tailnet/pgcoord.go:348-391 | whatever request was cached, active or not, reading its tunnel back returns exactly that request |
| Tunneler.Retrieve | enterprise/tailnet/pgcoord.go:370-391 | the result carries the requested key, and is active only if a request for that exact tunnel is cached; a missing source or destination reads as inactive |
| Tunneler.RetrieveSeesLast | enterprise/tailnet/pgcoord.go:348-391 | after any sequence of cached requests, retrieving the key of the last one returns exactly that request (a worker always writes the newest state) |
| Tunneler.RetrieveOthersAfterInactive | enterprise/tailnet/pgcoord.go:360-366 | removing one tunnel leaves the latest request of every other tunnel as it was |
| Tunneler.RetrieveAfterRemoveAll | enterprise/tailnet/pgcoord.go:357-359 | an inactive request with a Nil destination drops the source entirely, so every tunnel of that source reads as inactive |
| Tunneler.RetrieveOthersAfterActive | enterprise/tailnet/pgcoord.go:351-355 | adding a tunnel leaves the latest request of every other tunnel as it was |
| Binder.RetrieveBinding | enterprise/tailnet/pgcoord.go:621-634 | the result carries the requested key; it is DISCONNECTED with no node exactly when no binding is stored |
| Binder.StoreBinding | enterprise/tailnet/pgcoord.go:597-619 | NODE overwrites; DISCONNECTED deletes; LOST for an unknown peer changes nothing; LOST for a known peer keeps that peer's stored node; other kinds change nothing; other peers are untouched; stored entries stay NODE or LOST under their own key |
| Binder.LostKeepsLastNode | enterprise/tailnet/pgcoord.go:608-617 | after any history, a peer that reads as LOST carries the node of an earlier NODE binding for it, and only LOST or ignored bindings for that peer came after it |
| Binder.NodeIsLast | enterprise/tailnet/pgcoord.go:603-605 | after any history, a peer that reads as NODE reads as one of its bindings, and only ignored kinds for that peer came after it |
| Heartbeats.Filter | enterprise/tailnet/pgcoord.go:1512-1533 | keeps length and order; a mapping from this coordinator or a live one is unchanged; any other mapping is turned LOST and otherwise unchanged |
| Heartbeats.CheckExpiry | enterprise/tailnet/pgcoord.go:1626-1649 | removes exactly the coordinators whose last beat is at least 3 x 2 s old, keeps the rest with their times, and asks for a filter update exactly when something was removed |
| Heartbeats.ReceiveBeat | enterprise/tailnet/pgcoord.go:1562-1603 | this coordinator's own beat is ignored; any other beat records the sender at the current time and leaves the other senders alone; a filter update is requested exactly when the sender was not yet known |
| Heartbeats.FreshBeatSurvives | enterprise/tailnet/pgcoord.go:1583-1649 | a coordinator that beat less than the expiry window ago survives the expiry check |
| Heartbeats.CheckExpiryIdempotent | enterprise/tailnet/pgcoord.go:1626-1649 | a second expiry check at the same time removes nothing and requests no filter update |
| Heartbeats.ExpiredMappingsAreLost | enterprise/tailnet/pgcoord.go:1512-1533 | once a coordinator expires, every mapping it wrote (for another coordinator) is filtered to LOST |
| Heartbeats.SendBeat | enterprise/tailnet/pgcoord.go:1664-1684 | a canceled query changes nothing; a failure adds one and signals unhealthy exactly on the third failure; a success resets to zero and signals healthy exactly when at least three failures had been counted |
| Heartbeats.RunBeats | enterprise/tailnet/pgcoord.go:1651-1684 | repeated attempts send one signal slot per attempt, and a canceled attempt sends no signal |
| Heartbeats.CounterCountsFailures | enterprise/tailnet/pgcoord.go:1664-1684 | over repeated attempts the counter ends as the failures since the last successful write, plus the starting count when none succeeded |
| Heartbeats.SignalsAlternate | enterprise/tailnet/pgcoord.go:1664-1684 | over any run of beats the health signals alternate (unhealthy, healthy, unhealthy, ...), and the counter is at least three exactly when the last signal was unhealthy |
| Heartbeats.ThreeFailuresTurnUnhealthy | enterprise/tailnet/pgcoord.go:1670-1675 | three failed beats from a healthy start emit a single unhealthy signal, on the third |
| Mapper.Resolve | enterprise/tailnet/pgcoord.go:706-727 | every entry of the best set is keyed by its own peer and is one of the input mappings |
| Mapper.Consider | enterprise/tailnet/pgcoord.go:709-724 | one loop step adds the mapping's peer and leaves other peers alone; a LOST mapping never displaces an existing best; a NODE mapping displaces exactly a LOST best or an older NODE best |
| Mapper.ResolveKeys | enterprise/tailnet/pgcoord.go:706-727 | the best set has an entry for exactly the peers that some mapping mentions |
| Mapper.ResolvePicksNewestNode | enterprise/tailnet/pgcoord.go:716-724 | when a peer has any NODE mapping, its best mapping is the NODE mapping with the latest update time, the earliest such on a tie |
| Mapper.ResolveKeepsFirstLost | enterprise/tailnet/pgcoord.go:711-724 | when a peer has only LOST mappings, its best mapping is the first one |
| Mapper.BestMappings | enterprise/tailnet/pgcoord.go:702-727 | after heartbeat filtering the best set has an entry for exactly the mentioned peers; a peer with a NODE mapping from this or a live coordinator gets the newest such NODE (the earliest on a tie); any other peer gets its first mapping, downgraded to LOST |
| Mapper.Decide | enterprise/tailnet/pgcoord.go:732-764 | no update exactly for LOST when nothing or LOST was sent, or for NODE when an equal NODE was sent; any update carries the best mapping's node and kind |
| Mapper.Gone | enterprise/tailnet/pgcoord.go:768-777 | exactly the peers sent before but absent from the best set get a DISCONNECTED update with no node |
| Mapper.BestToUpdate | enterprise/tailnet/pgcoord.go:729-783 | a present peer gets an update exactly when `Decide` makes one, and that update; a vanished sent peer gets DISCONNECTED; the new sent record stays within the best set, records what was sent, and keeps the old entry of a skipped peer; the response is nil exactly when there is nothing to send |
| Mapper.NilIffNoUpdates | enterprise/tailnet/pgcoord.go:779-782 | the update set is empty exactly when every sent peer is still present and no present peer needs an update |
| Mapper.DiffIsIdempotent | enterprise/tailnet/pgcoord.go:729-783 | computing updates again for the same best set, against the new sent record, yields a nil response |
| WorkQueue.Empty | enterprise/tailnet/pgcoord.go:1367-1381 | a new queue has nothing pending and nothing in progress |
| WorkQueue.Enqueue | enterprise/tailnet/pgcoord.go:1384-1395 | an already-pending key is a no-op; otherwise the key is appended; in-progress is untouched; pending never holds a key twice |
| WorkQueue.EnqueueCoalesces | enterprise/tailnet/pgcoord.go:1384-1395 | enqueueing the same key twice is the same as enqueueing it once |
| WorkQueue.WorkAvailable | enterprise/tailnet/pgcoord.go:1421-1431 | true exactly when some pending key is not in progress |
| WorkQueue.Acquire | enterprise/tailnet/pgcoord.go:1397-1419 | cancellation wins; with no available work the call blocks; otherwise it takes the first pending key not in progress, removes it from pending and marks it in progress |
| WorkQueue.Done | enterprise/tailnet/pgcoord.go:1432-1438 | pending is unchanged, the key is no longer in progress, and no other key leaves in-progress |
| WorkQueue.RunKeepsValid | enterprise/tailnet/pgcoord.go:1357-1438 | any sequence of enqueue, acquire and done keeps pending free of duplicates |
| WorkQueue.ReachableValid | enterprise/tailnet/pgcoord.go:1367-1438 | every queue reachable from the empty one `newWorkQ` creates never holds a pending key twice |
| WorkQueue.HeldKeyNotReacquired | enterprise/tailnet/pgcoord.go:1357-1358 | while a key is in progress and `done` is not called for it, no acquire hands it out again: one job per key at a time |
| Messages.ParseTunnelUpdate | enterprise/tailnet/pgcoord.go:1293-1307 | a message without exactly one comma is a part-count error; otherwise it succeeds exactly when both halves parse, yielding the two UUIDs in order, and fails only with the UUID error |
| Messages.ParseAll | enterprise/tailnet/pgcoord.go:1300-1305 | parsing a list of parts succeeds exactly when every part parses, yielding the UUIDs in order; otherwise a parse error |
| Messages.ParsePeerUpdate | enterprise/tailnet/pgcoord.go:1309-1315 | succeeds exactly when the message parses, with the parsed UUID; otherwise the UUID error |
| Messages.ParseReadyForHandshake | enterprise/tailnet/pgcoord.go:1317-1330 | accepts the same messages as the tunnel-update parser with the same errors (the UUID error with one comma, the part-count error otherwise), yielding (to, from) from the two halves |
| Messages.TunnelUpdateRoundTrip | enterprise/tailnet/pgcoord.go:1293-1330 | two comma-free UUID texts joined by a comma parse back to the two UUIDs, for both message kinds |
| ScheduleForm.FirstFailure | site/src/pages/WorkspaceSettingsPage/WorkspaceSchedulePage/WorkspaceScheduleForm.tsx:95-175 | a field's tests, run in declaration order, report nothing exactly when all pass, and otherwise the message of the first failing test |
| ScheduleForm.MondayError | site/src/pages/WorkspaceSettingsPage/WorkspaceSchedulePage/WorkspaceScheduleForm.tsx:97-118 | the day-of-week error appears exactly when autostart is on and no day is selected |
| ScheduleForm.StartTimeError | site/src/pages/WorkspaceSettingsPage/WorkspaceSchedulePage/WorkspaceScheduleForm.tsx:125-145 | the start time has an error exactly when it is empty under autostart or fails the HH:mm test; the message is the required-message for the empty string and the format message otherwise |
| ScheduleForm.IsTimeString | site/src/pages/WorkspaceSettingsPage/WorkspaceSchedulePage/WorkspaceScheduleForm.tsx:134-145 | the HH:mm test passes exactly for the empty string, or for two digits, a colon and two digits whose hour reads at most 23 and minute at most 59 |
| ScheduleForm.TimeStringIsClockTime | site/src/pages/WorkspaceSettingsPage/WorkspaceSchedulePage/WorkspaceScheduleForm.tsx:134-145 | a non-empty start time passes the HH:mm test exactly when it is a two-digit hour 00-23, a colon and a two-digit minute 00-59 |
| ScheduleForm.TimezoneError | site/src/pages/WorkspaceSettingsPage/WorkspaceSchedulePage/WorkspaceScheduleForm.tsx:146-164 | the time zone has an error exactly when a start time is set and the zone does not resolve |
| ScheduleForm.TtlError | site/src/pages/WorkspaceSettingsPage/WorkspaceSchedulePage/WorkspaceScheduleForm.tsx:165-174 | the TTL has an error exactly when it is negative, above 720 hours, or zero under autostop, with the minimum, maximum and zero messages respectively |
| ScheduleForm.Validate | site/src/pages/WorkspaceSettingsPage/WorkspaceSchedulePage/WorkspaceScheduleForm.tsx:95-175 | the error map has an entry for exactly the fields whose tests fail, each with that field's message |
| ScheduleForm.ValidIff | site/src/pages/WorkspaceSettingsPage/WorkspaceSchedulePage/WorkspaceScheduleForm.tsx:95-175 | the form is valid exactly when: autostart has a day and a start time; the start time is HH:mm or empty; a set start time has a resolvable zone; the TTL is in [0, 720] and is non-zero under autostop |
| ScheduleForm.AtMostOneFailure | site/src/pages/WorkspaceSettingsPage/WorkspaceSchedulePage/WorkspaceScheduleForm.tsx:125-174 | no two start-time tests and no two TTL tests fail together |
| ScheduleForm.ToggleAutostart | site/src/pages/WorkspaceSettingsPage/WorkspaceSchedulePage/WorkspaceScheduleForm.tsx:238-255 | flips autostart; turning it off installs the empty schedule and turning it on the default one; autostop and TTL are untouched |
| ScheduleForm.ToggleAutostop | site/src/pages/WorkspaceSettingsPage/WorkspaceSchedulePage/WorkspaceScheduleForm.tsx:257-270 | flips autostop; turning it off sets the TTL to 0 and turning it on sets the default TTL; the schedule is untouched |
| ScheduleForm.AutostartOffPassesScheduleChecks | site/src/pages/WorkspaceSettingsPage/WorkspaceSchedulePage/WorkspaceScheduleForm.tsx:238-246 | switching autostart off with an empty start time clears the day, start-time and zone errors |
| ScheduleForm.AutostopTogglesPassTtlCheck | site/src/pages/WorkspaceSettingsPage/WorkspaceSchedulePage/WorkspaceScheduleForm.tsx:257-270 | either switch of autostop leaves no TTL error, given a default TTL in (0, 720] |
| ScheduleForm.TtlShutdownAt | site/src/pages/WorkspaceSettingsPage/WorkspaceSchedulePage/WorkspaceScheduleForm.tsx:457-464 | the "will not automatically shut down" text exactly for a zero TTL; otherwise a shutdown after the TTL in milliseconds |
| ScheduleForm.ShutdownMatchesAutostop | site/src/pages/WorkspaceSettingsPage/WorkspaceSchedulePage/WorkspaceScheduleForm.tsx:457-461 | a valid TTL under autostop describes a shutdown after a positive time of at most 30 days; switching autostop off describes no shutdown |
| Dormancy.ToGoDormant | site/src/pages/TemplateSettingsPage/TemplateSchedulePage/useWorkspacesToBeDeleted.ts:7-39 | absent without data; otherwise an order-preserving subsequence, empty when the period is 0 or absent, holding exactly the non-dormant workspaces whose last use plus the period is at or before the date |
| Dormancy.ToBeDeleted | site/src/pages/TemplateSettingsPage/TemplateSchedulePage/useWorkspacesToBeDeleted.ts:41-69 | absent without data; otherwise an order-preserving subsequence, empty when the period is 0 or absent, holding exactly the dormant workspaces whose dormancy start plus the period is at or before the date |
| Dormancy.PreviewsDisjoint | site/src/pages/TemplateSettingsPage/TemplateSchedulePage/useWorkspacesToBeDeleted.ts:12-55 | no workspace is in both previews, even when each hook filters the result of its own query |
| Dormancy.DormancyBoundary | site/src/pages/TemplateSettingsPage/TemplateSchedulePage/useWorkspacesToBeDeleted.ts:27-37 | for any last-use time, non-zero period and date, a lone non-dormant workspace is previewed exactly when last use plus period is at or before the date |
| Dormancy.DeletionBoundary | site/src/pages/TemplateSettingsPage/TemplateSchedulePage/useWorkspacesToBeDeleted.ts:53-68 | for any dormancy start, non-zero period and date, a lone dormant workspace is previewed for deletion exactly when dormancy start plus period is at or before the date |
| Dormancy.NotDormantNeverDeleted | site/src/pages/TemplateSettingsPage/TemplateSchedulePage/useWorkspacesToBeDeleted.ts:53-55 | a workspace without a dormancy start is never previewed for deletion |
| ProvisionerTags.KeyError | site/src/pages/TemplateVersionEditorPage/ProvisionerTagsPopover.tsx:28-30 | the key has an error exactly when it is empty ("Required") or `owner` ("Cannot override owner tag") |
| ProvisionerTags.ValueError | site/src/pages/TemplateVersionEditorPage/ProvisionerTagsPopover.tsx:31-42 | the value has an error exactly when it is empty or the key is `scope` and the value is not `organization` or `scope`; the message is "Required" for an empty value, whatever the key, and the scope message for a non-empty one |
| ProvisionerTags.ValidateTag | site/src/pages/TemplateVersionEditorPage/ProvisionerTagsPopover.tsx:27-43 | the error map holds the key and value errors, and nothing else |
| ProvisionerTags.TagValidIff | site/src/pages/TemplateVersionEditorPage/ProvisionerTagsPopover.tsx:27-43 | a tag is valid exactly when key and value are non-empty, the key is not `owner`, and a `scope` tag has an accepted scope value; other keys take any non-empty value |
| ProvisionerTags.CanSubmit | site/src/pages/TemplateVersionEditorPage/ProvisionerTagsPopover.tsx:144 | the add button is enabled exactly when the tag is valid (validity already implies the form is dirty) |
| ProvisionerTags.ScopeUserRejected | site/src/pages/TemplateVersionEditorPage/ProvisionerTagsPopover.tsx:33-39 | for key `scope` the value `user` gets the scope error, the empty value gets "Required", and the value `scope` is accepted |
| ProvisionerTags.DisplayedTags | site/src/pages/TemplateVersionEditorPage/ProvisionerTagsPopover.tsx:107-121 | the list never shows `owner`; it shows every other tag; only non-`scope` tags are deletable |
| ProvisionerTags.DisplayedIsFilter | site/src/pages/TemplateVersionEditorPage/ProvisionerTagsPopover.tsx:107-109 | the listed tags are exactly the `owner`-free filter of the tag record, in the same order |
| ProvisionerTags.DisplayedKeepsOrder | site/src/pages/TemplateVersionEditorPage/ProvisionerTagsPopover.tsx:107-109 | the listed tags are a subsequence of the tag record |

## Left out

- Database queries, pubsub subscriptions, retries with backoff, goroutines, locks and condition variables of `pgcoord.go`: the model is sequential. The lock-protected updates become pure functions, and a blocked `acquire` becomes the `Blocked` result.
- Timers and the clock: the heartbeat expiry timer and its reset are not modelled. `CheckExpiry` and `ReceiveBeat` take the current time as a parameter.
- `uuid.Parse` is a parameter of the parsers; the UUID text format is not modelled.
- Mapper.Decide: the branch where comparing two nodes fails (pgcoord.go:749-753) is not modelled. Node equality is structural, and the reason string is not stated in the contract.
- Mapper.BestToUpdate: the response's list order is the random order of Go map iteration, so the response is a map from peer to update.
- The conversion of database rows to mappings (`bindingsToMappings`) is not modelled; mappings are NODE or LOST by type.
- 64-bit wrap-around of times and durations is not modelled, because integers are unbounded. Go's `time.Time` comparison becomes integer comparison.
- ScheduleForm.TtlShutdownAt: the human-readable rendering of a non-zero TTL (`humanDuration`) and its error fallback are not modelled; the result only carries the duration in milliseconds.
- ScheduleForm.TimezoneError: whether `dayjs.tz` accepts a zone name is the `resolves` parameter.
- ScheduleForm.ToggleAutostart: `emptySchedule` and `defaultSchedule()` are parameters. The change event passed to `handleChange` is not modelled.
- The form library's type coercion (`ensure()`, a non-numeric TTL, NaN) is not modelled; the TTL is a real number.
- Input trimming (`onChangeTrimmed`), rendering, popovers and the query hooks' fetching are not modelled. The order of `Object.entries` is taken to be the given sequence.
- Dormancy: timestamps are integer milliseconds. Parsing the date strings and JavaScript's invalid-date cases are not modelled.

=== FILE: binder.dfy ===
/** The binder's cache of the latest binding of each peer to its node. Workers read it back when
    they write the binding to the database. */
module Binder {
  import opened Wrappers
  import opened TailnetTypes

  /** `binding`: an association between a peer and its node (`nil` is `None`). */
  datatype Binding = Binding(key: Uuid, node: Option<Node>, kind: Kind)

  /** `binder.latest`. */
  type Latest = map<Uuid, Binding>

  /** Every stored binding sits under its own key and is a NODE or a LOST binding: a disconnect
      removes the entry rather than storing it. */
  ghost predicate Valid(latest: Latest) {
    forall k | k in latest :: latest[k].key == k && (latest[k].kind == NodeKind || latest[k].kind == Lost)
  }

  /** `binder.retrieveBinding`: the latest binding for `k`; a peer with no entry reads as
      DISCONNECTED with no node. */
  function RetrieveBinding(latest: Latest, k: Uuid): (b: Binding)
    requires Valid(latest)
    ensures b.key == k
    ensures b.kind == Disconnected <==> k !in latest
    ensures b.kind == Disconnected ==> b.node == None
  {
    if k in latest then latest[k] else Binding(k, None, Disconnected)
  }

  /** `binder.storeBinding`: record `bnd` as the latest binding of its peer. A LOST binding keeps the
      node stored before it, because the database row needs a node; LOST for a peer never seen is
      ignored, and so is any kind the switch does not name. */
  function StoreBinding(latest: Latest, bnd: Binding): (r: Latest)
    requires Valid(latest)
    ensures Valid(r)
    ensures forall k | k != bnd.key :: (k in r <==> k in latest) && (k in r ==> r[k] == latest[k])
    ensures bnd.kind == NodeKind ==> RetrieveBinding(r, bnd.key) == bnd
    ensures bnd.kind == Disconnected ==> RetrieveBinding(r, bnd.key) == Binding(bnd.key, None, Disconnected)
    ensures bnd.kind == Lost && bnd.key !in latest ==> r == latest
    ensures bnd.kind == Lost && bnd.key in latest ==>
      RetrieveBinding(r, bnd.key) == Binding(bnd.key, latest[bnd.key].node, Lost)
    ensures bnd.kind == ReadyForHandshake ==> r == latest
  {
    match bnd.kind
    case NodeKind => latest[bnd.key := bnd]
    case Disconnected => latest - {bnd.key}
    case Lost =>
      if bnd.key in latest then latest[bnd.key := bnd.(node := latest[bnd.key].node)] else latest
    case ReadyForHandshake => latest
  }

  /** Storing a sequence of bindings, oldest first, into an empty cache. */
  function StoreAll(bs: seq<Binding>): (r: Latest)
    ensures Valid(r)
    decreases |bs|
  {
    if |bs| == 0 then map[] else StoreBinding(StoreAll(bs[..|bs| - 1]), bs[|bs| - 1])
  }

  /** No binding after index `i` could have replaced or removed the NODE entry of peer `k`. */
  ghost predicate OnlyLostAfter(bs: seq<Binding>, k: Uuid, i: int)
    requires 0 <= i < |bs|
  {
    forall j | i < j < |bs| && bs[j].key == k :: bs[j].kind == Lost || bs[j].kind == ReadyForHandshake
  }

  /** `bs[i]` is the NODE binding whose node peer `k` still carries while LOST. */
  ghost predicate LostWitness(bs: seq<Binding>, k: Uuid, i: int)
    requires Valid(StoreAll(bs))
  {
    && 0 <= i < |bs| && bs[i].key == k && bs[i].kind == NodeKind
    && RetrieveBinding(StoreAll(bs), k).node == bs[i].node
    && OnlyLostAfter(bs, k, i)
  }

  /** `bs[i]` is the binding peer `k` reads as, and only ignored kinds arrived for `k` after it. */
  ghost predicate NodeWitness(bs: seq<Binding>, k: Uuid, i: int)
    requires Valid(StoreAll(bs))
  {
    && 0 <= i < |bs| && bs[i] == RetrieveBinding(StoreAll(bs), k)
    && forall j | i < j < |bs| && bs[j].key == k :: bs[j].kind == ReadyForHandshake
  }

  /** After any history of bindings, a peer that reads as LOST carries the node of its last NODE
      binding, and nothing but LOST bindings (or kinds the binder ignores) arrived for it since. */
  lemma {:induction false} LostKeepsLastNode(bs: seq<Binding>, k: Uuid)
    requires RetrieveBinding(StoreAll(bs), k).kind == Lost
    ensures exists i :: LostWitness(bs, k, i)
    decreases |bs|
  {
    var n := |bs| - 1;
    var pre := bs[..n];
    var b := bs[n];
    assert pre == bs[..|bs| - 1];
    if b.key != k || b.kind == ReadyForHandshake {
      assert RetrieveBinding(StoreAll(pre), k) == RetrieveBinding(StoreAll(bs), k);
      LostKeepsLastNode(pre, k);
      var i :| LostWitness(pre, k, i);
      assert bs[i] == pre[i];
      assert OnlyLostAfter(bs, k, i);
      assert LostWitness(bs, k, i);
    } else {
      assert b.kind == Lost;
      assert k in StoreAll(pre);
      assert RetrieveBinding(StoreAll(pre), k).kind == Lost || RetrieveBinding(StoreAll(pre), k).kind == NodeKind;
      if RetrieveBinding(StoreAll(pre), k).kind == NodeKind {
        NodeIsLast(pre, k);
        var i :| NodeWitness(pre, k, i);
        assert bs[i] == pre[i];
        assert OnlyLostAfter(bs, k, i);
        assert LostWitness(bs, k, i);
      } else {
        LostKeepsLastNode(pre, k);
        var i :| LostWitness(pre, k, i);
        assert bs[i] == pre[i];
        assert OnlyLostAfter(bs, k, i);
        assert LostWitness(bs, k, i);
      }
    }
  }

  /** A peer that reads as NODE reads as its last NODE binding, and no NODE, LOST or DISCONNECTED
      binding arrived for the peer after it. */
  lemma {:induction false} NodeIsLast(bs: seq<Binding>, k: Uuid)
    requires RetrieveBinding(StoreAll(bs), k).kind == NodeKind
    ensures exists i :: NodeWitness(bs, k, i)
    decreases |bs|
  {
    var n := |bs| - 1;
    var pre := bs[..n];
    var b := bs[n];
    assert pre == bs[..|bs| - 1];
    if b.key == k && b.kind == NodeKind {
      assert NodeWitness(bs, k, n);
    } else {
      assert b.key != k || b.kind == ReadyForHandshake;
      assert RetrieveBinding(StoreAll(pre), k) == RetrieveBinding(StoreAll(bs), k);
      NodeIsLast(pre, k);
      var i :| NodeWitness(pre, k, i);
      assert bs[i] == pre[i];
      assert NodeWitness(bs, k, i);
    }
  }
}

=== FILE: dormancy.dfy ===
/** The template schedule page's preview of which workspaces a new dormancy policy would affect:
    those that would go dormant, and those dormant ones that would be deleted. Timestamps and
    durations are integer milliseconds. */
module Dormancy {
  import opened Wrappers
  import Seqs

  /** The fields of a workspace record the previews read; `dormantAt` is `None` for a workspace
      that is not dormant. */
  datatype Workspace = Workspace(id: string, lastUsedAt: int, dormantAt: Option<int>)

  /** JavaScript truthiness of an optional duration: absent and zero are both falsy. */
  predicate Set(ms: Option<int>) {
    ms.Some? && ms.value != 0
  }

  /** The predicate of `useWorkspacesToGoDormant`: the policy is on, the workspace is not dormant
      yet, and its last use plus the dormancy period is at or before `fromDate`. */
  predicate GoesDormant(w: Workspace, timeTilDormantMs: Option<int>, fromDate: int) {
    if !Set(timeTilDormantMs) then false
    else if w.dormantAt.Some? then false
    else w.lastUsedAt + timeTilDormantMs.value <= fromDate
  }

  /** The predicate of `useWorkspacesToBeDeleted`: the workspace is dormant, the policy is on, and
      its dormancy start plus the deletion period is at or before `fromDate`. */
  predicate GetsDeleted(w: Workspace, timeTilDeleteMs: Option<int>, fromDate: int) {
    if w.dormantAt.None? || !Set(timeTilDeleteMs) then false
    else w.dormantAt.value + timeTilDeleteMs.value <= fromDate
  }

  /** `useWorkspacesToGoDormant`: the fetched workspaces (`None` while nothing is loaded) that the
      dormancy period would make dormant by `fromDate`. */
  function ToGoDormant(data: Option<seq<Workspace>>, timeTilDormantMs: Option<int>, fromDate: int)
    : (r: Option<seq<Workspace>>)
    ensures r.Some? <==> data.Some?
    ensures r.Some? ==> Seqs.IsSubsequence(r.value, data.value) && |r.value| <= |data.value|
    ensures r.Some? ==> forall i | 0 <= i < |r.value| :: r.value[i] in data.value
    ensures r.Some? && !Set(timeTilDormantMs) ==> r.value == []
    ensures r.Some? ==> forall i | 0 <= i < |r.value| ::
      r.value[i].dormantAt.None? && r.value[i].lastUsedAt + timeTilDormantMs.value <= fromDate
    ensures r.Some? ==> forall w | w in data.value ::
      Set(timeTilDormantMs) && w.dormantAt.None? && w.lastUsedAt + timeTilDormantMs.value <= fromDate ==> w in r.value
  {
    match data
    case None => None
    case Some(ws) =>
      var p := w => GoesDormant(w, timeTilDormantMs, fromDate);
      Seqs.FilterIsSubsequence(ws, p);
      assert !Set(timeTilDormantMs) ==> Seqs.Filter(ws, p) == [] by {
        if !Set(timeTilDormantMs) { Seqs.FilterNone(ws, p); }
      }
      Some(Seqs.Filter(ws, p))
  }

  /** `useWorkspacesToBeDeleted`: the fetched dormant workspaces (`None` while nothing is loaded)
      that the deletion period would delete by `fromDate`. */
  function ToBeDeleted(data: Option<seq<Workspace>>, timeTilDeleteMs: Option<int>, fromDate: int)
    : (r: Option<seq<Workspace>>)
    ensures r.Some? <==> data.Some?
    ensures r.Some? ==> Seqs.IsSubsequence(r.value, data.value) && |r.value| <= |data.value|
    ensures r.Some? ==> forall i | 0 <= i < |r.value| :: r.value[i] in data.value
    ensures r.Some? && !Set(timeTilDeleteMs) ==> r.value == []
    ensures r.Some? ==> forall i | 0 <= i < |r.value| ::
      r.value[i].dormantAt.Some? && r.value[i].dormantAt.value + timeTilDeleteMs.value <= fromDate
    ensures r.Some? ==> forall w | w in data.value ::
      Set(timeTilDeleteMs) && w.dormantAt.Some? && w.dormantAt.value + timeTilDeleteMs.value <= fromDate ==> w in r.value
  {
    match data
    case None => None
    case Some(ws) =>
      var p := w => GetsDeleted(w, timeTilDeleteMs, fromDate);
      Seqs.FilterIsSubsequence(ws, p);
      assert !Set(timeTilDeleteMs) ==> Seqs.Filter(ws, p) == [] by {
        if !Set(timeTilDeleteMs) { Seqs.FilterNone(ws, p); }
      }
      Some(Seqs.Filter(ws, p))
  }

  /** The two previews never share a workspace, even though each hook fetches its own query: one
      keeps only non-dormant workspaces, the other only dormant ones. */
  lemma PreviewsDisjoint(dormantData: seq<Workspace>, deletedData: seq<Workspace>,
                         dormantMs: Option<int>, deleteMs: Option<int>, fromDate: int)
    ensures forall w | w in ToGoDormant(Some(dormantData), dormantMs, fromDate).value ::
      w !in ToBeDeleted(Some(deletedData), deleteMs, fromDate).value
  {
    var a := ToGoDormant(Some(dormantData), dormantMs, fromDate).value;
    var b := ToBeDeleted(Some(deletedData), deleteMs, fromDate).value;
    forall w | w in a
      ensures w !in b
    {
      var i :| 0 <= i < |a| && a[i] == w;
      assert w.dormantAt.None?;
    }
  }

  /** The dormancy boundary is inclusive: a lone non-dormant workspace is previewed exactly when
      its last use plus the (non-zero) period is at or before `fromDate`. */
  lemma {:induction false} DormancyBoundary(id: string, lastUsedAt: int, period: int, fromDate: int)
    requires period != 0
    ensures var w := Workspace(id, lastUsedAt, None);
      ToGoDormant(Some([w]), Some(period), fromDate) == Some(if lastUsedAt + period <= fromDate then [w] else [])
  {
    var w := Workspace(id, lastUsedAt, None);
    var r := ToGoDormant(Some([w]), Some(period), fromDate).value;
    assert w in [w];
    if lastUsedAt + period <= fromDate {
      assert w in r;
      assert r == [w];
    }
  }

  /** The deletion boundary is inclusive too: a lone dormant workspace is previewed exactly when
      its dormancy start plus the (non-zero) period is at or before `fromDate`. */
  lemma {:induction false} DeletionBoundary(id: string, lastUsedAt: int, dormantAt: int, period: int, fromDate: int)
    requires period != 0
    ensures var w := Workspace(id, lastUsedAt, Some(dormantAt));
      ToBeDeleted(Some([w]), Some(period), fromDate) == Some(if dormantAt + period <= fromDate then [w] else [])
  {
    var w := Workspace(id, lastUsedAt, Some(dormantAt));
    var r := ToBeDeleted(Some([w]), Some(period), fromDate).value;
    assert w in [w];
    if dormantAt + period <= fromDate {
      assert w in r;
      assert r == [w];
    }
  }

  /** A workspace that is not dormant is never previewed for deletion, whatever the period. */
  lemma NotDormantNeverDeleted(data: seq<Workspace>, deleteMs: Option<int>, fromDate: int, w: Workspace)
    requires w.dormantAt.None?
    ensures w !in ToBeDeleted(Some(data), deleteMs, fromDate).value
  {
    var b := ToBeDeleted(Some(data), deleteMs, fromDate).value;
    assert forall j | 0 <= j < |b| :: b[j].dormantAt.Some?;
  }
}

=== FILE: heartbeats.dfy ===
/** Heartbeat bookkeeping: which other coordinators are alive, how mappings from dead ones are
    downgraded, and the failure counter that turns this coordinator unhealthy and healthy again.
    Times are nanoseconds, as in Go's `time.Duration`. */
module Heartbeats {
  import opened TailnetTypes

  /** `HeartbeatPeriod`: two seconds. */
  const HeartbeatPeriod: int := 2_000_000_000
  /** `MissedHeartbeats`. */
  const MissedHeartbeats: int := 3
  /** A coordinator whose last beat is at least this old is considered gone. */
  const ExpiryWindow: int := MissedHeartbeats * HeartbeatPeriod

  /** `heartbeats.coordinators`: other coordinator -> time of its last beat. */
  type Coordinators = map<Uuid, int>

  /** The coordinators map after a change, and whether the change must trigger a filter update
      (`hbUpdate{filter: filterUpdateUpdated}`). */
  datatype CoordinatorsUpdate = CoordinatorsUpdate(coordinators: Coordinators, filterUpdate: bool)

  /** A mapping is trusted when it comes from this coordinator or from one still beating. */
  predicate Trusted(self: Uuid, coordinators: Coordinators, m: Mapping) {
    m.coordinator == self || m.coordinator in coordinators
  }

  /** `heartbeats.filter`: keep every mapping in place, downgrading those from coordinators that
      missed their heartbeats to LOST. */
  function Filter(self: Uuid, coordinators: Coordinators, ms: seq<Mapping>): (out: seq<Mapping>)
    ensures |out| == |ms|
    ensures forall i | 0 <= i < |ms| && Trusted(self, coordinators, ms[i]) :: out[i] == ms[i]
    ensures forall i | 0 <= i < |ms| && !Trusted(self, coordinators, ms[i]) :: out[i] == ms[i].(kind := Lost)
  {
    if |ms| == 0 then []
    else
      var m := ms[0];
      var m' := if Trusted(self, coordinators, m) then m else m.(kind := Lost);
      [m'] + Filter(self, coordinators, ms[1..])
  }

  /** `heartbeats.checkExpiry`: the coordinators still alive at `now`, and whether any was dropped
      (which triggers a filter update). */
  function CheckExpiry(coordinators: Coordinators, now: int): (r: CoordinatorsUpdate)
    ensures r.coordinators.Keys <= coordinators.Keys
    ensures forall id | id in r.coordinators ::
      r.coordinators[id] == coordinators[id] && now - r.coordinators[id] < ExpiryWindow
    ensures forall id | id in coordinators && id !in r.coordinators :: now - coordinators[id] >= ExpiryWindow
    ensures r.filterUpdate <==> r.coordinators != coordinators
  {
    var alive := map id | id in coordinators && now - coordinators[id] < ExpiryWindow :: coordinators[id];
    var expired := exists id | id in coordinators :: now - coordinators[id] >= ExpiryWindow;
    assert expired ==> alive != coordinators by {
      if expired {
        var id :| id in coordinators && now - coordinators[id] >= ExpiryWindow;
        assert id !in alive;
      }
    }
    CoordinatorsUpdate(alive, expired)
  }

  /** `heartbeats.listen` and `recvBeat`: a beat from another coordinator records `now` as its last
      beat, and a coordinator not yet known triggers a filter update; our own beat is ignored. */
  function ReceiveBeat(self: Uuid, coordinators: Coordinators, id: Uuid, now: int): (r: CoordinatorsUpdate)
    ensures id == self ==> r.coordinators == coordinators
    ensures id != self ==> r.coordinators.Keys == coordinators.Keys + {id} && r.coordinators[id] == now
    ensures forall other | other in coordinators && other != id :: r.coordinators[other] == coordinators[other]
    ensures r.filterUpdate <==> id != self && id !in coordinators
  {
    if id == self then CoordinatorsUpdate(coordinators, false)
    else CoordinatorsUpdate(coordinators[id := now], id !in coordinators)
  }

  /** A coordinator that beat less than the expiry window ago survives the expiry check. */
  lemma FreshBeatSurvives(self: Uuid, coordinators: Coordinators, id: Uuid, beat: int, now: int)
    requires id != self && beat <= now < beat + ExpiryWindow
    ensures id in CheckExpiry(ReceiveBeat(self, coordinators, id, beat).coordinators, now).coordinators
  {
  }

  /** The expiry check is idempotent: checking again at the same instant drops nothing more and
      signals nothing. */
  lemma CheckExpiryIdempotent(coordinators: Coordinators, now: int)
    ensures var alive := CheckExpiry(coordinators, now).coordinators;
      CheckExpiry(alive, now) == CoordinatorsUpdate(alive, false)
  {
    var alive := CheckExpiry(coordinators, now).coordinators;
    assert CheckExpiry(alive, now).coordinators == alive;
  }

  /** Once a coordinator expires, every mapping it published is downgraded to LOST by the filter,
      while mappings of this coordinator and of live ones pass through unchanged. */
  lemma ExpiredMappingsAreLost(self: Uuid, coordinators: Coordinators, now: int, ms: seq<Mapping>, i: int)
    requires 0 <= i < |ms|
    requires ms[i].coordinator != self && ms[i].coordinator in coordinators
    requires now - coordinators[ms[i].coordinator] >= ExpiryWindow
    ensures Filter(self, CheckExpiry(coordinators, now).coordinators, ms)[i].kind == Lost
  {
  }

  /** The outcome of one attempt to write our heartbeat row. */
  datatype BeatOutcome = Written | QueryCanceled | Failed

  /** `healthUpdate`: the health signal sent to the querier, if any. */
  datatype HealthUpdate = NoHealthUpdate | Healthy | Unhealthy

  /** `failedHeartbeats` after an attempt, and the signal the attempt sent. */
  datatype Beat = Beat(failed: nat, health: HealthUpdate)

  /** `heartbeats.sendBeat`, reduced to its effect on `failedHeartbeats` and the signal it sends. */
  function SendBeat(failed: nat, outcome: BeatOutcome): (r: Beat)
    ensures outcome == QueryCanceled ==> r == Beat(failed, NoHealthUpdate)
    ensures outcome == Failed ==> r.failed == failed + 1 && (r.health == Unhealthy <==> failed + 1 == 3)
    ensures outcome == Failed ==> r.health != Healthy
    ensures outcome == Written ==> r.failed == 0 && (r.health == Healthy <==> failed >= 3) && r.health != Unhealthy
  {
    match outcome
    case QueryCanceled => Beat(failed, NoHealthUpdate)
    case Failed => Beat(failed + 1, if failed + 1 == 3 then Unhealthy else NoHealthUpdate)
    case Written => Beat(0, if failed >= 3 then Healthy else NoHealthUpdate)
  }

  /** The counter after a run of attempts, and the signal each attempt sent. */
  datatype BeatRun = BeatRun(failed: nat, signals: seq<HealthUpdate>)

  /** The number of failed attempts among `outcomes`. */
  function Failures(outcomes: seq<BeatOutcome>): nat
    decreases |outcomes|
  {
    if |outcomes| == 0 then 0 else (if outcomes[0] == Failed then 1 else 0) + Failures(outcomes[1..])
  }

  /** Heartbeat attempts in order, starting from the counter `failed`; a canceled attempt never
      sends a signal. */
  function RunBeats(failed: nat, outcomes: seq<BeatOutcome>): (r: BeatRun)
    ensures |r.signals| == |outcomes|
    ensures forall i | 0 <= i < |outcomes| && outcomes[i] == QueryCanceled :: r.signals[i] == NoHealthUpdate
    decreases |outcomes|
  {
    if |outcomes| == 0 then BeatRun(failed, [])
    else
      var step := SendBeat(failed, outcomes[0]);
      var rest := RunBeats(step.failed, outcomes[1..]);
      BeatRun(rest.failed, [step.health] + rest.signals)
  }

  /** After a run of attempts the counter is the number of failures since the last successful
      write, on top of the starting count when no write succeeded. */
  lemma {:induction false} CounterCountsFailures(failed: nat, outcomes: seq<BeatOutcome>)
    ensures (forall i | 0 <= i < |outcomes| :: outcomes[i] != Written) ==>
      RunBeats(failed, outcomes).failed == failed + Failures(outcomes)
    ensures forall i | 0 <= i < |outcomes| && outcomes[i] == Written && Written !in outcomes[i + 1..] ::
      RunBeats(failed, outcomes).failed == Failures(outcomes[i + 1..])
    decreases |outcomes|
  {
    if |outcomes| > 0 {
      var step := SendBeat(failed, outcomes[0]);
      var tail := outcomes[1..];
      CounterCountsFailures(step.failed, tail);
      assert forall i | 1 <= i < |outcomes| :: outcomes[i] == tail[i - 1] && outcomes[i + 1..] == tail[i..];
    }
  }

  /** The signals, ignoring attempts that sent none, alternate between Unhealthy and Healthy,
      starting from the state `unhealthy`. */
  predicate Alternating(signals: seq<HealthUpdate>, unhealthy: bool) {
    if |signals| == 0 then true
    else match signals[0]
      case NoHealthUpdate => Alternating(signals[1..], unhealthy)
      case Unhealthy => !unhealthy && Alternating(signals[1..], true)
      case Healthy => unhealthy && Alternating(signals[1..], false)
  }

  /** The querier never sees two Unhealthy (or two Healthy) signals in a row: the counter is at or
      above 3 exactly while the last signal sent was Unhealthy. */
  lemma {:induction false} SignalsAlternate(failed: nat, outcomes: seq<BeatOutcome>)
    ensures Alternating(RunBeats(failed, outcomes).signals, failed >= 3)
    ensures RunBeats(failed, outcomes).failed >= 3 <==> LastSignalUnhealthy(RunBeats(failed, outcomes).signals, failed >= 3)
    decreases |outcomes|
  {
    if |outcomes| > 0 {
      var step := SendBeat(failed, outcomes[0]);
      SignalsAlternate(step.failed, outcomes[1..]);
      var sigs := RunBeats(failed, outcomes).signals;
      assert sigs[1..] == RunBeats(step.failed, outcomes[1..]).signals;
      LastSignalCons(step.health, sigs[1..], failed >= 3);
    }
  }

  /** Whether the last signal in `signals` was Unhealthy, given the state before them. */
  function LastSignalUnhealthy(signals: seq<HealthUpdate>, unhealthy: bool): bool {
    if |signals| == 0 then unhealthy
    else LastSignalUnhealthy(signals[1..], match signals[0]
      case NoHealthUpdate => unhealthy
      case Unhealthy => true
      case Healthy => false)
  }

  lemma LastSignalCons(sig: HealthUpdate, rest: seq<HealthUpdate>, unhealthy: bool)
    ensures LastSignalUnhealthy([sig] + rest, unhealthy) == LastSignalUnhealthy(rest, match sig
      case NoHealthUpdate => unhealthy
      case Unhealthy => true
      case Healthy => false)
  {
    assert ([sig] + rest)[1..] == rest;
  }

  /** From a healthy start, three consecutive failed writes send exactly one Unhealthy signal, on the
      third attempt. */
  lemma ThreeFailuresTurnUnhealthy()
    ensures RunBeats(0, [Failed, Failed, Failed]) == BeatRun(3, [NoHealthUpdate, NoHealthUpdate, Unhealthy])
  {
    var one: seq<BeatOutcome> := [Failed];
    var two := [Failed] + one;
    var three := [Failed] + two;
    assert one[1..] == [] && two[1..] == one && three[1..] == two;
    assert RunBeats(2, one) == BeatRun(3, [Unhealthy]);
    assert RunBeats(1, two) == BeatRun(3, [NoHealthUpdate, Unhealthy]);
    assert three == [Failed, Failed, Failed];
  }
}

=== FILE: mapper.dfy ===
/** The mapper of one connected peer: it resolves the mappings read from the database into the
    best mapping per peer, and diffs that against what it already sent to the connection. */
module Mapper {
  import opened Wrappers
  import opened TailnetTypes
  import Heartbeats

  /** One step of `bestMappings`' loop: a mapping becomes the best for its peer when there is none
      yet, when it is a NODE and the current best is LOST, or when it is a strictly newer NODE. */
  function Consider(best: map<Uuid, Mapping>, m: Mapping): (r: map<Uuid, Mapping>)
    ensures r.Keys == best.Keys + {m.peer}
    ensures forall p | p in best && p != m.peer :: r[p] == best[p]
    ensures m.peer !in best ==> r[m.peer] == m
    // a LOST mapping never displaces an existing best
    ensures m.peer in best && m.kind == Lost ==> r == best
    // a NODE mapping displaces a LOST best or an older NODE best, and nothing else
    ensures m.peer in best && m.kind == NodeKind ==>
      if best[m.peer].kind == Lost || m.updatedAt > best[m.peer].updatedAt then r[m.peer] == m else r == best
  {
    if m.peer !in best then best[m.peer := m]
    else if best[m.peer].kind == Lost && m.kind == NodeKind then best[m.peer := m]
    else if m.updatedAt > best[m.peer].updatedAt && m.kind == NodeKind then best[m.peer := m]
    else best
  }

  /** The loop of `bestMappings` over already filtered mappings, in order: each peer's best is
      one of the input mappings for that peer. */
  function Resolve(ms: seq<Mapping>): (best: map<Uuid, Mapping>)
    ensures forall p | p in best :: best[p].peer == p && best[p] in ms
    decreases |ms|
  {
    if |ms| == 0 then map[]
    else
      var pre := ms[..|ms| - 1];
      assert forall m | m in pre :: m in ms;
      Consider(Resolve(pre), ms[|ms| - 1])
  }

  ghost predicate Mentions(ms: seq<Mapping>, p: Uuid) {
    exists i :: 0 <= i < |ms| && ms[i].peer == p
  }

  ghost predicate HasNode(ms: seq<Mapping>, p: Uuid) {
    exists i :: 0 <= i < |ms| && ms[i].peer == p && ms[i].kind == NodeKind
  }

  /** `ms[i]` is the first of the newest NODE mappings for `p`. */
  ghost predicate NewestNode(ms: seq<Mapping>, p: Uuid, i: int) {
    && 0 <= i < |ms| && ms[i].peer == p && ms[i].kind == NodeKind
    && (forall j | 0 <= j < |ms| && ms[j].peer == p && ms[j].kind == NodeKind :: ms[j].updatedAt <= ms[i].updatedAt)
    && (forall j | 0 <= j < i && ms[j].peer == p && ms[j].kind == NodeKind :: ms[j].updatedAt < ms[i].updatedAt)
  }

  /** `ms[i]` is the first mapping for `p`. */
  ghost predicate FirstFor(ms: seq<Mapping>, p: Uuid, i: int) {
    0 <= i < |ms| && ms[i].peer == p && forall j | 0 <= j < i :: ms[j].peer != p
  }

  /** The resolved map has exactly one entry per peer mentioned in the mappings. */
  lemma {:induction false} ResolveKeys(ms: seq<Mapping>, p: Uuid)
    ensures p in Resolve(ms) <==> Mentions(ms, p)
    decreases |ms|
  {
    if |ms| > 0 {
      var pre := ms[..|ms| - 1];
      ResolveKeys(pre, p);
      if Mentions(pre, p) {
        var w :| 0 <= w < |pre| && pre[w].peer == p;
        assert ms[w].peer == p;
      }
      if Mentions(ms, p) && ms[|ms| - 1].peer != p {
        var w :| 0 <= w < |ms| && ms[w].peer == p;
        assert pre[w].peer == p;
      }
    }
  }

  /** The newest NODE of a prefix stays the newest when the next mapping does not beat it. */
  lemma NewestNodeKept(pre: seq<Mapping>, m: Mapping, p: Uuid, i: int)
    requires NewestNode(pre, p, i)
    requires m.peer != p || m.kind == Lost || m.updatedAt <= pre[i].updatedAt
    ensures NewestNode(pre + [m], p, i)
  {
    var ms := pre + [m];
    forall j | 0 <= j < |ms| && ms[j].peer == p && ms[j].kind == NodeKind
      ensures ms[j].updatedAt <= ms[i].updatedAt
    {
      if j < |pre| {
        assert ms[j] == pre[j];
      }
    }
  }

  /** A NODE strictly newer than every earlier NODE of its peer becomes the newest. */
  lemma NewestNodeIsLast(pre: seq<Mapping>, m: Mapping, p: Uuid)
    requires m.peer == p && m.kind == NodeKind
    requires forall j | 0 <= j < |pre| && pre[j].peer == p && pre[j].kind == NodeKind :: pre[j].updatedAt < m.updatedAt
    ensures NewestNode(pre + [m], p, |pre|)
  {
    var ms := pre + [m];
    forall j | 0 <= j < |ms| && ms[j].peer == p && ms[j].kind == NodeKind
      ensures ms[j].updatedAt <= m.updatedAt
    {
      if j < |pre| {
        assert ms[j] == pre[j];
      }
    }
  }

  /** When a peer has a NODE mapping, its entry is its newest NODE mapping (the earliest one on a
      tie), whatever LOST mappings surround it. */
  lemma {:induction false} ResolvePicksNewestNode(ms: seq<Mapping>, p: Uuid)
    requires HasNode(ms, p)
    ensures p in Resolve(ms) && exists i :: NewestNode(ms, p, i) && Resolve(ms)[p] == ms[i]
    decreases |ms|
  {
    var n := |ms| - 1;
    var pre, m := ms[..n], ms[n];
    assert ms == pre + [m];
    var before := Resolve(pre);
    assert Resolve(ms) == Consider(before, m);
    if HasNode(pre, p) {
      ResolvePicksNewestNode(pre, p);
      var i :| NewestNode(pre, p, i) && before[p] == pre[i];
      if m.peer == p && m.kind == NodeKind && m.updatedAt > before[p].updatedAt {
        NewestNodeIsLast(pre, m, p);
      } else {
        NewestNodeKept(pre, m, p, i);
      }
    } else {
      // every earlier mapping for p is LOST, so the NODE is m itself and it replaces any entry
      assert m.peer == p && m.kind == NodeKind;
      ResolveKeys(pre, p);
      if p in before {
        ResolveKeepsFirstLost(pre, p);
      }
      NewestNodeIsLast(pre, m, p);
    }
  }

  /** When every mapping for a peer is LOST, its entry is the first of them: a LOST mapping never
      replaces an entry. */
  lemma {:induction false} ResolveKeepsFirstLost(ms: seq<Mapping>, p: Uuid)
    requires Mentions(ms, p) && !HasNode(ms, p)
    ensures p in Resolve(ms) && Resolve(ms)[p].kind == Lost
    ensures exists i :: FirstFor(ms, p, i) && Resolve(ms)[p] == ms[i]
    decreases |ms|
  {
    var n := |ms| - 1;
    var pre, m := ms[..n], ms[n];
    assert ms == pre + [m];
    var before := Resolve(pre);
    assert Resolve(ms) == Consider(before, m);
    ResolveKeys(pre, p);
    forall j | 0 <= j < |pre| && pre[j].peer == p
      ensures pre[j].kind == Lost
    {
      assert pre[j] == ms[j];
    }
    if Mentions(pre, p) {
      ResolveKeepsFirstLost(pre, p);
      var i :| FirstFor(pre, p, i) && before[p] == pre[i];
      assert FirstFor(ms, p, i);
    } else {
      assert m.peer == p;
      assert FirstFor(ms, p, n);
    }
  }

  /** Some NODE mapping for `p` comes from this coordinator or a live one. */
  ghost predicate HasTrustedNode(self: Uuid, coordinators: Heartbeats.Coordinators, ms: seq<Mapping>, p: Uuid) {
    exists i :: 0 <= i < |ms| && ms[i].peer == p && ms[i].kind == NodeKind && Heartbeats.Trusted(self, coordinators, ms[i])
  }

  /** `ms[i]` is the first of the newest NODE mappings for `p` that come from this coordinator or
      a live one. */
  ghost predicate NewestTrustedNode(self: Uuid, coordinators: Heartbeats.Coordinators, ms: seq<Mapping>, p: Uuid, i: int) {
    && 0 <= i < |ms| && ms[i].peer == p && ms[i].kind == NodeKind && Heartbeats.Trusted(self, coordinators, ms[i])
    && (forall j | 0 <= j < |ms| && ms[j].peer == p && ms[j].kind == NodeKind && Heartbeats.Trusted(self, coordinators, ms[j]) ::
          ms[j].updatedAt <= ms[i].updatedAt)
    && (forall j | 0 <= j < i && ms[j].peer == p && ms[j].kind == NodeKind && Heartbeats.Trusted(self, coordinators, ms[j]) ::
          ms[j].updatedAt < ms[i].updatedAt)
  }

  /** Filtering keeps every peer of the input, so resolving keeps them too. */
  lemma FilteredKeys(self: Uuid, coordinators: Heartbeats.Coordinators, ms: seq<Mapping>, p: Uuid)
    ensures p in Resolve(Heartbeats.Filter(self, coordinators, ms)) <==> Mentions(ms, p)
  {
    var filtered := Heartbeats.Filter(self, coordinators, ms);
    ResolveKeys(filtered, p);
    if Mentions(ms, p) {
      var i :| 0 <= i < |ms| && ms[i].peer == p;
      assert filtered[i].peer == p;
    }
    if Mentions(filtered, p) {
      var i :| 0 <= i < |filtered| && filtered[i].peer == p;
      assert ms[i].peer == p;
    }
  }

  /** The NODE mappings that survive filtering are exactly the trusted ones, so the newest NODE
      after filtering is the newest trusted NODE before it. */
  lemma NewestAfterFilter(self: Uuid, coordinators: Heartbeats.Coordinators, ms: seq<Mapping>, p: Uuid, k: int)
    requires NewestNode(Heartbeats.Filter(self, coordinators, ms), p, k)
    ensures NewestTrustedNode(self, coordinators, ms, p, k)
    ensures Heartbeats.Filter(self, coordinators, ms)[k] == ms[k]
  {
    var filtered := Heartbeats.Filter(self, coordinators, ms);
    forall j | 0 <= j < |ms| && ms[j].peer == p && ms[j].kind == NodeKind && Heartbeats.Trusted(self, coordinators, ms[j])
      ensures filtered[j] == ms[j]
    {
    }
  }

  lemma FilteredTrusted(self: Uuid, coordinators: Heartbeats.Coordinators, ms: seq<Mapping>, p: Uuid)
    requires HasTrustedNode(self, coordinators, ms, p)
    ensures var best := Resolve(Heartbeats.Filter(self, coordinators, ms));
      p in best && exists i :: NewestTrustedNode(self, coordinators, ms, p, i) && best[p] == ms[i]
  {
    var filtered := Heartbeats.Filter(self, coordinators, ms);
    assert HasNode(filtered, p) by {
      var i :| 0 <= i < |ms| && ms[i].peer == p && ms[i].kind == NodeKind && Heartbeats.Trusted(self, coordinators, ms[i]);
      assert filtered[i] == ms[i];
    }
    ResolvePicksNewestNode(filtered, p);
    var k :| NewestNode(filtered, p, k) && Resolve(filtered)[p] == filtered[k];
    NewestAfterFilter(self, coordinators, ms, p, k);
  }

  /** Without a trusted NODE, every mapping of the peer is LOST after filtering, and the first one
      for the peer is at the same place as before. */
  lemma FirstAfterFilter(self: Uuid, coordinators: Heartbeats.Coordinators, ms: seq<Mapping>, p: Uuid, k: int)
    requires FirstFor(Heartbeats.Filter(self, coordinators, ms), p, k)
    requires !HasTrustedNode(self, coordinators, ms, p)
    ensures FirstFor(ms, p, k)
    ensures Heartbeats.Filter(self, coordinators, ms)[k] == ms[k].(kind := Lost)
  {
    var filtered := Heartbeats.Filter(self, coordinators, ms);
    forall j | 0 <= j < k ensures ms[j].peer != p {
      assert filtered[j].peer != p;
    }
    if Heartbeats.Trusted(self, coordinators, ms[k]) {
      assert filtered[k] == ms[k];
      assert ms[k].kind == Lost;
    }
  }

  lemma FilteredUntrusted(self: Uuid, coordinators: Heartbeats.Coordinators, ms: seq<Mapping>, p: Uuid)
    requires Mentions(ms, p) && !HasTrustedNode(self, coordinators, ms, p)
    ensures var best := Resolve(Heartbeats.Filter(self, coordinators, ms));
      p in best && exists i :: FirstFor(ms, p, i) && best[p] == ms[i].(kind := Lost)
  {
    var filtered := Heartbeats.Filter(self, coordinators, ms);
    assert Mentions(filtered, p) && !HasNode(filtered, p) by {
      var w :| 0 <= w < |ms| && ms[w].peer == p;
      assert filtered[w].peer == p;
      forall i | 0 <= i < |filtered| && filtered[i].peer == p
        ensures filtered[i].kind == Lost
      {
        assert ms[i].peer == p;
      }
    }
    ResolveKeepsFirstLost(filtered, p);
    var k :| FirstFor(filtered, p, k) && Resolve(filtered)[p] == filtered[k];
    FirstAfterFilter(self, coordinators, ms, p, k);
  }

  /** `mapper.bestMappings`: filter by heartbeats, then keep one mapping per peer. Every peer of the
      input has an entry. A peer with a NODE mapping from this coordinator or a live one gets the
      newest such NODE (the earliest on a tie); any other peer gets its first mapping, as LOST. */
  function BestMappings(self: Uuid, coordinators: Heartbeats.Coordinators, ms: seq<Mapping>): (best: map<Uuid, Mapping>)
    ensures forall p :: p in best <==> Mentions(ms, p)
    ensures forall p | HasTrustedNode(self, coordinators, ms, p) ::
      p in best && exists i :: NewestTrustedNode(self, coordinators, ms, p, i) && best[p] == ms[i]
    ensures forall p | p in best && !HasTrustedNode(self, coordinators, ms, p) ::
      exists i :: FirstFor(ms, p, i) && best[p] == ms[i].(kind := Lost)
  {
    var r := Resolve(Heartbeats.Filter(self, coordinators, ms));
    assert forall p :: (p in r <==> Mentions(ms, p)) by {
      forall p ensures p in r <==> Mentions(ms, p) { FilteredKeys(self, coordinators, ms, p); }
    }
    assert forall p | HasTrustedNode(self, coordinators, ms, p) ::
      p in r && exists i :: NewestTrustedNode(self, coordinators, ms, p, i) && r[p] == ms[i] by {
      forall p | HasTrustedNode(self, coordinators, ms, p)
        ensures p in r && exists i :: NewestTrustedNode(self, coordinators, ms, p, i) && r[p] == ms[i]
      { FilteredTrusted(self, coordinators, ms, p); }
    }
    assert forall p | p in r && !HasTrustedNode(self, coordinators, ms, p) ::
      exists i :: FirstFor(ms, p, i) && r[p] == ms[i].(kind := Lost) by {
      forall p | p in r && !HasTrustedNode(self, coordinators, ms, p)
        ensures exists i :: FirstFor(ms, p, i) && r[p] == ms[i].(kind := Lost)
      {
        FilteredKeys(self, coordinators, ms, p);
        FilteredUntrusted(self, coordinators, ms, p);
      }
    }
    r
  }

  /** An update about one peer sent to the connection (`CoordinateResponse_PeerUpdate`). */
  datatype PeerUpdate = PeerUpdate(node: Option<Node>, kind: Kind, reason: string)

  /** The response to enqueue (`None` for a nil response) and the new record of what was sent. */
  datatype Diff = Diff(response: Option<map<Uuid, PeerUpdate>>, sent: map<Uuid, Mapping>)

  /** The update `bestToUpdate` sends for a peer still in `best`, if any: none for a LOST peer
      never sent, none for LOST after LOST or for an unchanged NODE, and otherwise the peer's best
      mapping with the reason the source logs. */
  function Decide(sent: map<Uuid, Mapping>, k: Uuid, m: Mapping): (d: Option<PeerUpdate>)
    ensures d.Some? ==> d.value.node == m.node && d.value.kind == m.kind
    ensures d.None? <==>
      || (m.kind == Lost && (k !in sent || sent[k].kind == Lost))
      || (k in sent && sent[k].kind == NodeKind && m.kind == NodeKind && sent[k].node == m.node)
  {
    if k !in sent then
      if m.kind == Lost then None else Some(PeerUpdate(m.node, m.kind, "new"))
    else
      var sm := sent[k];
      if sm.kind == Lost && m.kind == Lost then None
      else if sm.kind == Lost then Some(PeerUpdate(m.node, m.kind, "found"))
      else if m.kind == Lost then Some(PeerUpdate(m.node, m.kind, "lost"))
      else if sm.node == m.node then None
      else Some(PeerUpdate(m.node, m.kind, "update"))
  }

  /** The peer updates of a diff, empty for a nil response. */
  function Updates(d: Diff): map<Uuid, PeerUpdate> {
    d.response.GetOr(map[])
  }

  /** The first loop of `bestToUpdate`: updates for peers in `best`. */
  function Emitted(sent: map<Uuid, Mapping>, best: map<Uuid, Mapping>): (e: map<Uuid, PeerUpdate>)
    ensures forall k :: k in e <==> k in best && Decide(sent, k, best[k]).Some?
    ensures forall k | k in e :: e[k] == Decide(sent, k, best[k]).value
  {
    map k | k in best && Decide(sent, k, best[k]).Some? :: Decide(sent, k, best[k]).value
  }

  /** The second loop of `bestToUpdate`: DISCONNECTED for every peer sent before and now absent. */
  function Gone(sent: map<Uuid, Mapping>, best: map<Uuid, Mapping>): (g: map<Uuid, PeerUpdate>)
    ensures forall k :: k in g <==> k in sent && k !in best
    ensures forall k | k in g :: g[k] == PeerUpdate(None, Disconnected, "disconnected")
  {
    map k | k in sent && k !in best :: PeerUpdate(None, Disconnected, "disconnected")
  }

  /** `mapper.sent` after both loops: peers updated now record their best mapping, skipped peers
      keep what was sent before, and absent peers are forgotten. */
  function SentAfter(sent: map<Uuid, Mapping>, best: map<Uuid, Mapping>): (s: map<Uuid, Mapping>)
    ensures forall k :: k in s <==> k in best && (Decide(sent, k, best[k]).Some? || k in sent)
    ensures forall k | k in s :: s[k] == if Decide(sent, k, best[k]).Some? then best[k] else sent[k]
  {
    map k | k in best && (Decide(sent, k, best[k]).Some? || k in sent) ::
      if Decide(sent, k, best[k]).Some? then best[k] else sent[k]
  }

  /** `mapper.bestToUpdate`: the updates that bring the connection from `sent` to `best`. */
  function BestToUpdate(sent: map<Uuid, Mapping>, best: map<Uuid, Mapping>): (r: Diff)
    // a LOST peer that was never sent, or one that was already sent as LOST, gets no update
    ensures forall k | k in best && best[k].kind == Lost && (k !in sent || sent[k].kind == Lost) :: k !in Updates(r)
    // an unchanged NODE gets no update
    ensures forall k | k in best && k in sent && best[k].kind == NodeKind && sent[k].kind == NodeKind &&
      best[k].node == sent[k].node :: k !in Updates(r)
    // every other peer in best is sent its best mapping, and recorded as sent
    ensures forall k | k in best && k in Updates(r) ::
      Updates(r)[k].node == best[k].node && Updates(r)[k].kind == best[k].kind && k in r.sent && r.sent[k] == best[k]
    // a present peer gets an update exactly when `Decide` makes one, and that update is the one sent
    ensures forall k | k in best :: k in Updates(r) <==> Decide(sent, k, best[k]).Some?
    ensures forall k | k in best && k in Updates(r) :: Updates(r)[k] == Decide(sent, k, best[k]).value
    // a skipped peer keeps whatever was recorded for it before, and stays unrecorded if it was not
    ensures forall k | k in best && Decide(sent, k, best[k]).None? ::
      (k in r.sent <==> k in sent) && (k in sent ==> r.sent[k] == sent[k])
    // every peer sent before and now absent is sent DISCONNECTED and forgotten
    ensures forall k | k in sent && k !in best ::
      k in Updates(r) && Updates(r)[k] == PeerUpdate(None, Disconnected, "disconnected") && k !in r.sent
    ensures Updates(r).Keys <= best.Keys + sent.Keys
    ensures r.sent.Keys <= best.Keys
    // afterwards the connection knows each peer by its best kind, and by its best node when NODE
    ensures forall k | k in r.sent ::
      (r.sent[k].kind == best[k].kind && (best[k].kind == NodeKind ==> r.sent[k].node == best[k].node))
    ensures r.response.None? <==> sent.Keys <= best.Keys && forall k | k in best :: Decide(sent, k, best[k]).None?
    ensures r.response.Some? ==> |r.response.value| > 0
  {
    var updates := Emitted(sent, best) + Gone(sent, best);
    NilIffNoUpdates(sent, best);
    UpdatesFollowDecide(sent, best);
    SentFollowsDecide(sent, best);
    Diff(if updates == map[] then None else Some(updates), SentAfter(sent, best))
  }

  /** What the two loops emit, peer by peer. */
  lemma UpdatesFollowDecide(sent: map<Uuid, Mapping>, best: map<Uuid, Mapping>)
    ensures var u := Emitted(sent, best) + Gone(sent, best);
      && (forall k | k in best && best[k].kind == Lost && (k !in sent || sent[k].kind == Lost) :: k !in u)
      && (forall k | k in best && k in sent && best[k].kind == NodeKind && sent[k].kind == NodeKind &&
            best[k].node == sent[k].node :: k !in u)
      && (forall k | k in best :: k in u <==> Decide(sent, k, best[k]).Some?)
      && (forall k | k in best && k in u ::
            u[k] == Decide(sent, k, best[k]).value && u[k].node == best[k].node && u[k].kind == best[k].kind)
      && (forall k | k in sent && k !in best :: k in u && u[k] == PeerUpdate(None, Disconnected, "disconnected"))
      && u.Keys <= best.Keys + sent.Keys
  {
  }

  /** What the two loops record as sent, peer by peer. */
  lemma SentFollowsDecide(sent: map<Uuid, Mapping>, best: map<Uuid, Mapping>)
    ensures var s := SentAfter(sent, best);
      && (forall k | k in best && Decide(sent, k, best[k]).Some? :: k in s && s[k] == best[k])
      && (forall k | k in best && Decide(sent, k, best[k]).None? ::
            (k in s <==> k in sent) && (k in sent ==> s[k] == sent[k]))
      && (forall k | k in sent && k !in best :: k !in s)
      && s.Keys <= best.Keys
      && (forall k | k in s :: s[k].kind == best[k].kind && (best[k].kind == NodeKind ==> s[k].node == best[k].node))
  {
  }

  /** There are no peer updates exactly when every peer sent is still present and no present
      peer needs an update. */
  lemma NilIffNoUpdates(sent: map<Uuid, Mapping>, best: map<Uuid, Mapping>)
    ensures Emitted(sent, best) + Gone(sent, best) == map[] <==>
      sent.Keys <= best.Keys && forall k | k in best :: Decide(sent, k, best[k]).None?
    ensures Emitted(sent, best) + Gone(sent, best) != map[] ==> |Emitted(sent, best) + Gone(sent, best)| > 0
  {
    var updates := Emitted(sent, best) + Gone(sent, best);
    if updates == map[] {
      forall k | k in sent ensures k in best {
        assert k !in updates;
      }
      forall k | k in best ensures Decide(sent, k, best[k]).None? {
        assert k !in updates;
      }
    } else {
      var k :| k in updates;
      assert |updates| > 0;
    }
  }

  /** Diffing twice against the same best mappings sends nothing the second time. */
  lemma DiffIsIdempotent(sent: map<Uuid, Mapping>, best: map<Uuid, Mapping>)
    ensures BestToUpdate(BestToUpdate(sent, best).sent, best).response == None
  {
    var sent' := BestToUpdate(sent, best).sent;
    forall k | k in best ensures Decide(sent', k, best[k]).None? {
      if k in sent' {
        assert sent'[k].kind == best[k].kind;
      }
    }
  }
}

=== FILE: messages.dfy ===
/** Shape checks of the pubsub notifications the querier listens to. Parsing one UUID
    (`uuid.Parse`) is taken as a parameter: it is a library call outside this model. */
module Messages {
  import opened Wrappers
  import opened TailnetTypes
  import opened Strings

  datatype ParseError =
    | WrongPartCount  // "expected 2 parts separated by comma"
    | BadUuid         // a UUID failed to parse

  /** The text before and after the first comma of `msg`. */
  function Left(msg: string): string {
    msg[..IndexOf(msg, ',')]
  }

  function Right(msg: string): string {
    if IndexOf(msg, ',') < |msg| then msg[IndexOf(msg, ',') + 1..] else ""
  }

  /** `parseTunnelUpdate`: exactly two comma-separated UUIDs, the two ends of a tunnel. */
  function ParseTunnelUpdate(msg: string, parse: string -> Option<Uuid>): (r: Result<seq<Uuid>, ParseError>)
    ensures Count(msg, ',') != 1 ==> r == Err(WrongPartCount)
    ensures Count(msg, ',') == 1 ==>
      (r.Ok? <==> parse(Left(msg)).Some? && parse(Right(msg)).Some?)
    ensures r.Ok? ==> Count(msg, ',') == 1 && r.value == [parse(Left(msg)).value, parse(Right(msg)).value]
    // with the right number of parts, the only failure is a half that is not a UUID
    ensures Count(msg, ',') == 1 && r.Err? ==> r.error == BadUuid
  {
    var parts := Split(msg, ',');
    SplitLength(msg, ',');
    if |parts| != 2 then Err(WrongPartCount)
    else
      SplitTwo(msg, ',');
      assert parts == [Left(msg), Right(msg)];
      assert (forall i | 0 <= i < |parts| :: parse(parts[i]).Some?) <==>
        parse(parts[0]).Some? && parse(parts[1]).Some?;
      ParseAll(parts, parse)
  }

  /** The loop of `parseTunnelUpdate` and `parseReadyForHandshake`: parse every part, failing on
      the first that is not a UUID. */
  function ParseAll(parts: seq<string>, parse: string -> Option<Uuid>): (r: Result<seq<Uuid>, ParseError>)
    ensures r.Ok? <==> forall i | 0 <= i < |parts| :: parse(parts[i]).Some?
    ensures r.Err? ==> r.error == BadUuid
    ensures r.Ok? ==> |r.value| == |parts| && forall i | 0 <= i < |parts| :: r.value[i] == parse(parts[i]).value
    decreases |parts|
  {
    if |parts| == 0 then Ok([])
    else match parse(parts[0])
      case None => Err(BadUuid)
      case Some(id) =>
        match ParseAll(parts[1..], parse)
        case Err(e) => Err(e)
        case Ok(ids) => Ok([id] + ids)
  }

  /** The two peers of a ready-for-handshake notification. */
  datatype Handshake = Handshake(to: Uuid, from: Uuid)

  /** `parseReadyForHandshake`: the same shape as a tunnel update, read as (to, from). */
  function ParseReadyForHandshake(msg: string, parse: string -> Option<Uuid>): (r: Result<Handshake, ParseError>)
    ensures r.Ok? <==> ParseTunnelUpdate(msg, parse).Ok?
    ensures r.Ok? ==> r.value == Handshake(parse(Left(msg)).value, parse(Right(msg)).value)
    ensures r.Err? ==> r.error == ParseTunnelUpdate(msg, parse).error
    ensures r.Err? ==> r.error == if Count(msg, ',') == 1 then BadUuid else WrongPartCount
  {
    match ParseTunnelUpdate(msg, parse)
    case Err(e) => Err(e)
    case Ok(ids) => Ok(Handshake(ids[0], ids[1]))
  }

  /** `parsePeerUpdate`: the whole message is one UUID. */
  function ParsePeerUpdate(msg: string, parse: string -> Option<Uuid>): (r: Result<Uuid, ParseError>)
    ensures r.Ok? <==> parse(msg).Some?
    ensures r.Ok? ==> r.value == parse(msg).value
    ensures r.Err? ==> r.error == BadUuid
  {
    match parse(msg)
    case None => Err(BadUuid)
    case Some(id) => Ok(id)
  }

  /** Two UUID texts without commas, joined by one comma, parse back to their two UUIDs. */
  lemma TunnelUpdateRoundTrip(a: string, b: string, parse: string -> Option<Uuid>)
    requires ',' !in a && ',' !in b
    requires parse(a).Some? && parse(b).Some?
    ensures ParseTunnelUpdate(a + [','] + b, parse) == Ok([parse(a).value, parse(b).value])
    ensures ParseReadyForHandshake(a + [','] + b, parse) == Ok(Handshake(parse(a).value, parse(b).value))
  {
    var msg := a + [','] + b;
    CountNone(a, ',');
    CountNone(b, ',');
    CountAppend(a, [','] + b, ',');
    CountAppend([','], b, ',');
    assert msg == a + ([','] + b);
    IndexOfPrefix(a, b);
    assert Left(msg) == a;
    assert Right(msg) == b;
  }

  lemma IndexOfPrefix(a: string, b: string)
    requires ',' !in a
    ensures IndexOf(a + [','] + b, ',') == |a|
  {
    var msg := a + [','] + b;
    var i := IndexOf(msg, ',');
    assert msg[|a|] == ',';
  }
}

=== FILE: provisioner_tags.dfy ===
/** The provisioner-tag popover of the template version editor: the rules a new key/value tag must
    pass before it can be added, and which existing tags are listed and which of them can be
    deleted. */
module ProvisionerTags {
  import opened Wrappers
  import Seqs

  /** One provisioner tag, as an entry of the tag record. */
  datatype Tag = Tag(key: string, value: string)

  const OwnerKey := "owner"
  const ScopeKey := "scope"

  const ErrorRequired := "Required"
  const ErrorOwner := "Cannot override owner tag"
  const ErrorScope := "Scope value must be 'organization' or 'user'"

  /** The values the schema accepts for the `scope` key. The message names `user`, but the list
      holds `scope`; the model keeps the list as written. */
  const ScopeValues: set<string> := {"organization", "scope"}

  /** The form's two fields. */
  datatype TagField = Key | Value

  /** The key's tests in declaration order: `required`, then `notOneOf(["owner"])`. */
  function KeyError(key: string): (e: Option<string>)
    ensures e.Some? <==> key == "" || key == OwnerKey
    ensures e.Some? ==> e.value == if key == "" then ErrorRequired else ErrorOwner
  {
    if key == "" then Some(ErrorRequired)
    else if key == OwnerKey then Some(ErrorOwner)
    else None
  }

  /** The value's tests: `required`, and, only when the key is `scope`, membership of the
      accepted scope values. The form hands an empty field to the schema as absent; the
      membership test lets an absent value pass and `required` rejects it, so an empty value
      always gets "Required", whatever the key. */
  function ValueError(key: string, value: string): (e: Option<string>)
    ensures e.Some? <==> value == "" || (key == ScopeKey && value !in ScopeValues)
    ensures e.Some? ==> e.value == if value == "" then ErrorRequired else ErrorScope
  {
    if value == "" then Some(ErrorRequired)
    else if key == ScopeKey && value !in ScopeValues then Some(ErrorScope)
    else None
  }

  /** `validationSchema`: the error of each invalid field of the form; empty means valid. */
  function ValidateTag(t: Tag): (errors: map<TagField, string>)
    ensures Key in errors <==> KeyError(t.key).Some?
    ensures Key in errors ==> errors[Key] == KeyError(t.key).value
    ensures Value in errors <==> ValueError(t.key, t.value).Some?
    ensures Value in errors ==> errors[Value] == ValueError(t.key, t.value).value
  {
    var keyErrors := if KeyError(t.key).Some? then map[Key := KeyError(t.key).value] else map[];
    if ValueError(t.key, t.value).Some? then keyErrors[Value := ValueError(t.key, t.value).value]
    else keyErrors
  }

  /** A tag passes exactly when both fields are non-empty, the key is not `owner`, and a `scope`
      tag has one of the accepted scope values; any other key takes any non-empty value. */
  lemma TagValidIff(t: Tag)
    ensures ValidateTag(t) == map[] <==>
      && t.key != "" && t.key != OwnerKey && t.value != ""
      && (t.key == ScopeKey ==> t.value in ScopeValues)
  {
    if ValidateTag(t) != map[] {
      var f :| f in ValidateTag(t);
    }
  }

  /** The add button is enabled when the form is dirty (differs from the empty initial values)
      and valid; validity alone already makes it dirty. */
  function CanSubmit(t: Tag): (ok: bool)
    ensures ok <==> ValidateTag(t) == map[]
  {
    TagValidIff(t);
    t != Tag("", "") && ValidateTag(t) == map[]
  }

  /** The value `user`, which the scope message names, is rejected for the `scope` key, and the
      value `scope` is accepted. An empty `scope` value gets "Required", not the scope message. */
  lemma ScopeUserRejected()
    ensures ValidateTag(Tag(ScopeKey, "user")) == map[Value := ErrorScope]
    ensures ValidateTag(Tag(ScopeKey, "")) == map[Value := ErrorRequired]
    ensures ValidateTag(Tag(ScopeKey, "scope")) == map[]
  {
    TagValidIff(Tag(ScopeKey, "scope"));
    var errors := ValidateTag(Tag(ScopeKey, "user"));
    assert errors.Keys == {Value};
    var empty := ValidateTag(Tag(ScopeKey, ""));
    assert empty.Keys == {Value};
  }

  /** One listed tag; only a deletable chip gets a delete handler. */
  datatype Chip = Chip(name: string, value: string, deletable: bool)

  /** The chip a listed tag is drawn as: every tag but `scope` can be deleted. */
  function ChipOf(t: Tag): Chip {
    Chip(t.key, t.value, t.key != ScopeKey)
  }

  /** A tag is listed unless it is the `owner` tag, which cannot be overridden. */
  predicate Listed(t: Tag) {
    t.key != OwnerKey
  }

  /** The listed tags: every tag but `owner`, in the record's order. */
  function DisplayedTags(tags: seq<Tag>): (r: seq<Chip>)
    ensures |r| <= |tags|
    ensures forall i | 0 <= i < |r| :: r[i].name != OwnerKey
    ensures forall i | 0 <= i < |r| :: r[i].deletable <==> r[i].name != ScopeKey
    ensures forall i | 0 <= i < |r| :: Tag(r[i].name, r[i].value) in tags
    ensures forall i | 0 <= i < |tags| && tags[i].key != OwnerKey :: ChipOf(tags[i]) in r
  {
    if |tags| == 0 then []
    else if tags[0].key == OwnerKey then DisplayedTags(tags[1..])
    else [ChipOf(tags[0])] + DisplayedTags(tags[1..])
  }

  /** The tag a chip shows. */
  function TagOf(c: Chip): Tag {
    Tag(c.name, c.value)
  }

  function TagsOf(cs: seq<Chip>): (r: seq<Tag>)
    ensures |r| == |cs|
    ensures forall i | 0 <= i < |cs| :: r[i] == TagOf(cs[i])
  {
    if |cs| == 0 then [] else [TagOf(cs[0])] + TagsOf(cs[1..])
  }

  /** The list shows exactly the `owner`-free filter of the tag record, in the same order. */
  lemma {:induction false} DisplayedIsFilter(tags: seq<Tag>)
    ensures TagsOf(DisplayedTags(tags)) == Seqs.Filter(tags, Listed)
  {
    if |tags| > 0 {
      DisplayedIsFilter(tags[1..]);
      var rest := DisplayedTags(tags[1..]);
      if tags[0].key != OwnerKey {
        assert DisplayedTags(tags) == [ChipOf(tags[0])] + rest;
        assert TagsOf([ChipOf(tags[0])] + rest) == [tags[0]] + TagsOf(rest);
      }
    }
  }

  /** Hence the listed tags keep the record's order. */
  lemma DisplayedKeepsOrder(tags: seq<Tag>)
    ensures Seqs.IsSubsequence(TagsOf(DisplayedTags(tags)), tags)
  {
    DisplayedIsFilter(tags);
    Seqs.FilterIsSubsequence(tags, Listed);
  }
}

=== FILE: schedule_form.dfy ===
/** The workspace schedule form: its validation rules, the autostart and autostop switches, and
    the zero case of the shutdown description. Hours of TTL are JavaScript numbers, modelled as
    reals (never NaN). */
module ScheduleForm {
  import opened Wrappers
  import Strings

  /** `WorkspaceScheduleFormValues`. */
  datatype FormValues = FormValues(
    autostartEnabled: bool,
    sunday: bool, monday: bool, tuesday: bool, wednesday: bool,
    thursday: bool, friday: bool, saturday: bool,
    startTime: string,
    timezone: string,
    autostopEnabled: bool,
    ttl: real)

  /** The fields `emptySchedule` and `defaultSchedule()` fill in: the days, the start time and the
      timezone. */
  datatype Schedule = Schedule(
    sunday: bool, monday: bool, tuesday: bool, wednesday: bool,
    thursday: bool, friday: bool, saturday: bool,
    startTime: string,
    timezone: string)

  const ErrorNoDayOfWeek := "Must set at least one day of week if autostart is enabled."
  const ErrorNoTime := "Start time is required when autostart is enabled."
  const ErrorTime := "Time must be in HH:mm format."
  const ErrorTimezone := "Invalid timezone."
  const ErrorNoStop := "Time until shutdown must be greater than zero when autostop is enabled."
  const ErrorTtlMax := "Please enter a limit that is less than or equal to 720 hours (30 days)."
  /** The validation library's default message for `min(0)` on the `ttl` field. */
  const ErrorTtlMin := "ttl must be greater than or equal to 0"
  const NoShutdownMessage := "Your workspace will not automatically shut down."

  /** The longest TTL the form accepts: 30 days, in hours. */
  const MaxTtlHours: real := 720.0

  function ScheduleOf(v: FormValues): Schedule {
    Schedule(v.sunday, v.monday, v.tuesday, v.wednesday, v.thursday, v.friday, v.saturday, v.startTime, v.timezone)
  }

  predicate AnyDay(v: FormValues) {
    v.sunday || v.monday || v.tuesday || v.wednesday || v.thursday || v.friday || v.saturday
  }

  // ---- the HH:mm test ----

  predicate IsDigit(c: char) {
    '0' <= c <= '9'
  }

  /** `/^[0-9][0-9]:[0-9][0-9]$/`. */
  predicate MatchesClockPattern(s: string) {
    |s| == 5 && IsDigit(s[0]) && IsDigit(s[1]) && s[2] == ':' && IsDigit(s[3]) && IsDigit(s[4])
  }

  function DigitValue(c: char): nat
    requires IsDigit(c)
  {
    c as int - '0' as int
  }

  /** `Number(s)` for a string of decimal digits. */
  function Number(s: string): nat
    requires forall i | 0 <= i < |s| :: IsDigit(s[i])
    decreases |s|
  {
    if |s| == 0 then 0 else 10 * Number(s[..|s| - 1]) + DigitValue(s[|s| - 1])
  }

  lemma NumberOfTwo(a: char, b: char)
    requires IsDigit(a) && IsDigit(b)
    ensures Number([a, b]) == 10 * DigitValue(a) + DigitValue(b)
  {
    var one, two := [a], [a, b];
    assert two[..1] == one && one[..0] == [];
    assert Number(one) == DigitValue(a);
  }

  /** The `is-time-string` test: empty, or HH:mm with the hour at most 23 and the minute at most
      59, read by splitting on the colon. */
  predicate IsTimeString(value: string): (ok: bool)
    ensures ok <==> (value == "" || (MatchesClockPattern(value) &&
                                     10 * DigitValue(value[0]) + DigitValue(value[1]) <= 23 &&
                                     10 * DigitValue(value[3]) + DigitValue(value[4]) <= 59))
  {
    if value == "" then true
    else if !MatchesClockPattern(value) then false
    else
      var parts := Strings.Split(value, ':');
      ClockParts(value);
      assert parts[0] == [value[0], value[1]] && parts[1] == [value[3], value[4]];
      NumberOfTwo(value[0], value[1]);
      NumberOfTwo(value[3], value[4]);
      Number(parts[0]) <= 23 && Number(parts[1]) <= 59
  }

  lemma ClockParts(value: string)
    requires MatchesClockPattern(value)
    ensures Strings.Split(value, ':') == [value[..2], value[3..]]
  {
    assert Strings.IndexOf(value, ':') == 2;
    assert value[3..] == [value[3], value[4]];
    assert Strings.IndexOf(value[3..], ':') == 2;
  }

  /** The two-digit rendering of `n`, as a clock shows it. */
  function TwoDigits(n: nat): string
    requires n < 100
  {
    [('0' as int + n / 10) as char, ('0' as int + n % 10) as char]
  }

  /** The time of day `h:m` as an HH:mm string. */
  function FormatClock(h: nat, m: nat): string
    requires h < 100 && m < 100
  {
    TwoDigits(h) + ":" + TwoDigits(m)
  }

  ghost predicate IsClockTime(s: string) {
    exists h: nat, m: nat | h <= 23 && m <= 59 :: s == FormatClock(h, m)
  }

  /** A non-empty start time passes the HH:mm test exactly when it is some time of day 00:00 to
      23:59 written with two-digit hour and minute. */
  lemma TimeStringIsClockTime(s: string)
    requires s != ""
    ensures IsTimeString(s) <==> IsClockTime(s)
  {
    if IsTimeString(s) {
      var h := 10 * DigitValue(s[0]) + DigitValue(s[1]);
      var m := 10 * DigitValue(s[3]) + DigitValue(s[4]);
      assert s == FormatClock(h, m);
    }
    if IsClockTime(s) {
      var h: nat, m: nat :| h <= 23 && m <= 59 && s == FormatClock(h, m);
      FormatClockDigits(h, m);
    }
  }

  /** An HH:mm rendering reads back as the hour and minute it renders. */
  lemma FormatClockDigits(h: nat, m: nat)
    requires h < 100 && m < 100
    ensures var s := FormatClock(h, m);
      && MatchesClockPattern(s)
      && 10 * DigitValue(s[0]) + DigitValue(s[1]) == h
      && 10 * DigitValue(s[3]) + DigitValue(s[4]) == m
  {
    var s := FormatClock(h, m);
    assert s[0] == TwoDigits(h)[0] && s[1] == TwoDigits(h)[1];
    assert s[3] == TwoDigits(m)[0] && s[4] == TwoDigits(m)[1];
  }

  // ---- the validation schema ----

  /** Form fields that can carry an error. The day-of-week error is attached to `monday`. */
  datatype Field = Monday | StartTime | Timezone | Ttl

  /** A named test of the schema: its message, and whether it passed. */
  datatype Check = Check(passed: bool, message: string)

  /** The form keeps the first failing test's message for each field, in declaration order. */
  function FirstFailure(checks: seq<Check>): (r: Option<string>)
    ensures r.None? <==> forall i | 0 <= i < |checks| :: checks[i].passed
    ensures r.Some? ==> exists i | 0 <= i < |checks| ::
      (!checks[i].passed && r.value == checks[i].message && forall j | 0 <= j < i :: checks[j].passed)
    decreases |checks|
  {
    if |checks| == 0 then None
    else if !checks[0].passed then Some(checks[0].message)
    else
      var rest := FirstFailure(checks[1..]);
      assert forall i | 1 <= i < |checks| :: checks[i] == checks[1..][i - 1];
      rest
  }

  function MondayChecks(v: FormValues): seq<Check> {
    [Check(!v.autostartEnabled || AnyDay(v), ErrorNoDayOfWeek)]
  }

  function StartTimeChecks(v: FormValues): seq<Check> {
    [ Check(!v.autostartEnabled || v.startTime != "", ErrorNoTime),
      Check(IsTimeString(v.startTime), ErrorTime) ]
  }

  /** `resolves(zone)` stands for `dayjs.tz` accepting the zone name without throwing. */
  function TimezoneChecks(v: FormValues, resolves: string -> bool): seq<Check> {
    [Check(v.startTime == "" || resolves(v.timezone), ErrorTimezone)]
  }

  function TtlChecks(v: FormValues): seq<Check> {
    [ Check(v.ttl >= 0.0, ErrorTtlMin),
      Check(v.ttl <= MaxTtlHours, ErrorTtlMax),
      Check(!v.autostopEnabled || v.ttl != 0.0, ErrorNoStop) ]
  }

  /** The `at-least-one-day` test, whose error is attached to `monday`. */
  function MondayError(v: FormValues): (e: Option<string>)
    ensures e.Some? <==> v.autostartEnabled && !AnyDay(v)
    ensures e.Some? ==> e.value == ErrorNoDayOfWeek
  {
    FirstFailure(MondayChecks(v))
  }

  /** The `required-if-autostart` and `is-time-string` tests. */
  function StartTimeError(v: FormValues): (e: Option<string>)
    ensures e.Some? <==> (v.autostartEnabled && v.startTime == "") || !IsTimeString(v.startTime)
    ensures e.Some? ==> e.value == if v.startTime == "" then ErrorNoTime else ErrorTime
  {
    var checks := StartTimeChecks(v);
    assert checks[0].passed && checks[1].passed ==> forall i | 0 <= i < |checks| :: checks[i].passed;
    FirstFailure(checks)
  }

  /** The `is-timezone` test, skipped while the start time is empty. */
  function TimezoneError(v: FormValues, resolves: string -> bool): (e: Option<string>)
    ensures e.Some? <==> v.startTime != "" && !resolves(v.timezone)
    ensures e.Some? ==> e.value == ErrorTimezone
  {
    FirstFailure(TimezoneChecks(v, resolves))
  }

  /** The `min(0)`, `max(720)` and `positive-if-autostop` tests. */
  function TtlError(v: FormValues): (e: Option<string>)
    ensures e.Some? <==> v.ttl < 0.0 || v.ttl > MaxTtlHours || (v.autostopEnabled && v.ttl == 0.0)
    ensures e.Some? ==>
      e.value == if v.ttl < 0.0 then ErrorTtlMin else if v.ttl > MaxTtlHours then ErrorTtlMax else ErrorNoStop
  {
    var checks := TtlChecks(v);
    assert checks[0].passed && checks[1].passed && checks[2].passed ==> forall i | 0 <= i < |checks| :: checks[i].passed;
    FirstFailure(checks)
  }

  function FieldError(v: FormValues, resolves: string -> bool, f: Field): Option<string> {
    match f
    case Monday => MondayError(v)
    case StartTime => StartTimeError(v)
    case Timezone => TimezoneError(v, resolves)
    case Ttl => TtlError(v)
  }

  /** `validationSchema`: the error message of each invalid field; an empty map means valid. */
  function Validate(v: FormValues, resolves: string -> bool): (errors: map<Field, string>)
    ensures forall f: Field :: f in errors <==> FieldError(v, resolves, f).Some?
    ensures forall f | f in errors :: errors[f] == FieldError(v, resolves, f).value
  {
    map f | f in {Monday, StartTime, Timezone, Ttl} && FieldError(v, resolves, f).Some? :: FieldError(v, resolves, f).value
  }

  /** The whole schema: a form is valid exactly when it has a day and an HH:mm start time whenever
      autostart is on, a resolvable zone whenever a start time is set, and a TTL in [0, 720] that
      is non-zero whenever autostop is on. */
  lemma ValidIff(v: FormValues, resolves: string -> bool)
    ensures Validate(v, resolves) == map[] <==>
      && (v.autostartEnabled ==> AnyDay(v) && v.startTime != "")
      && IsTimeString(v.startTime)
      && (v.startTime != "" ==> resolves(v.timezone))
      && 0.0 <= v.ttl <= MaxTtlHours
      && (v.autostopEnabled ==> v.ttl != 0.0)
  {
    var errors := Validate(v, resolves);
    if errors == map[] {
      assert Monday !in errors && StartTime !in errors && Timezone !in errors && Ttl !in errors;
    } else {
      var f :| f in errors;
    }
  }

  /** At most one test of the start time, and at most one test of the TTL, fails at a time, so the
      order in which failures are kept never hides a message. */
  lemma AtMostOneFailure(v: FormValues)
    ensures !StartTimeChecks(v)[0].passed ==> StartTimeChecks(v)[1].passed
    ensures forall i, j | 0 <= i < j < 3 :: TtlChecks(v)[i].passed || TtlChecks(v)[j].passed
  {
  }

  // ---- the switches ----

  /** `handleToggleAutostart`: turning autostart off clears the schedule fields to `empty`; turning
      it on fills them from `default` (`defaultSchedule()`). */
  function ToggleAutostart(v: FormValues, empty: Schedule, default: Schedule): (r: FormValues)
    ensures r.autostartEnabled == !v.autostartEnabled
    ensures ScheduleOf(r) == if v.autostartEnabled then empty else default
    ensures r.autostopEnabled == v.autostopEnabled && r.ttl == v.ttl
  {
    var s := if v.autostartEnabled then empty else default;
    v.(autostartEnabled := !v.autostartEnabled,
       sunday := s.sunday, monday := s.monday, tuesday := s.tuesday, wednesday := s.wednesday,
       thursday := s.thursday, friday := s.friday, saturday := s.saturday,
       startTime := s.startTime, timezone := s.timezone)
  }

  /** `handleToggleAutostop`: turning autostop off sets the TTL to 0; turning it on sets the
      default TTL. */
  function ToggleAutostop(v: FormValues, defaultTtl: real): (r: FormValues)
    ensures r.autostopEnabled == !v.autostopEnabled
    ensures r.ttl == if v.autostopEnabled then 0.0 else defaultTtl
    ensures r.autostartEnabled == v.autostartEnabled && ScheduleOf(r) == ScheduleOf(v)
  {
    if v.autostopEnabled then v.(autostopEnabled := false, ttl := 0.0)
    else v.(autostopEnabled := true, ttl := defaultTtl)
  }

  /** With autostart switched off and an empty start time, the day, start time and timezone tests
      all pass, whatever the days and zone. */
  lemma AutostartOffPassesScheduleChecks(v: FormValues, empty: Schedule, default: Schedule, resolves: string -> bool)
    requires v.autostartEnabled && empty.startTime == ""
    ensures var w := ToggleAutostart(v, empty, default);
      MondayError(w).None? && StartTimeError(w).None? && TimezoneError(w, resolves).None?
  {
  }

  /** Switching autostop on with a default TTL in (0, 720] leaves no TTL error; switching it off
      leaves none either. */
  lemma AutostopTogglesPassTtlCheck(v: FormValues, defaultTtl: real)
    requires !v.autostopEnabled ==> 0.0 < defaultTtl <= MaxTtlHours
    ensures TtlError(ToggleAutostop(v, defaultTtl)).None?
  {
  }

  // ---- the shutdown description ----

  /** What `ttlShutdownAt` describes: no automatic shutdown, or a shutdown after a duration in
      milliseconds (rendered by a formatter outside this model). */
  datatype ShutdownText = NoShutdown(message: string) | ShutdownAfter(durationMs: real)

  /** `ttlShutdownAt`. */
  function TtlShutdownAt(ttl: real): (r: ShutdownText)
    ensures r.NoShutdown? <==> ttl == 0.0
    ensures r.NoShutdown? ==> r.message == NoShutdownMessage
    ensures r.ShutdownAfter? ==> r.durationMs == ttl * 3600000.0
  {
    if ttl == 0.0 then NoShutdown(NoShutdownMessage) else ShutdownAfter(ttl * 60.0 * 60.0 * 1000.0)
  }

  /** A form that passes the TTL tests with autostop on describes a shutdown after a positive
      duration of at most 30 days; with autostop switched off it describes no shutdown. */
  lemma ShutdownMatchesAutostop(v: FormValues, defaultTtl: real)
    ensures v.autostopEnabled && TtlError(v).None? ==>
      TtlShutdownAt(v.ttl).ShutdownAfter? && 0.0 < TtlShutdownAt(v.ttl).durationMs <= MaxTtlHours * 3600000.0
    ensures v.autostopEnabled ==> TtlShutdownAt(ToggleAutostop(v, defaultTtl).ttl) == NoShutdown(NoShutdownMessage)
  {
  }
}

=== FILE: seqs.dfy ===
/** Order-preserving list filtering, as JavaScript's `Array.prototype.filter` and Go's
    append-in-a-loop idiom perform it. */
module Seqs {

  /** `a` is obtained from `b` by deleting elements, keeping the rest in their order. */
  predicate IsSubsequence<T(==)>(a: seq<T>, b: seq<T>)
    decreases |b|
  {
    |a| == 0 || (|b| > 0 && if a[0] == b[0] then IsSubsequence(a[1..], b[1..]) else IsSubsequence(a, b[1..]))
  }

  /** The elements of `s` satisfying `p`, in their original order. */
  function Filter<T(==)>(s: seq<T>, p: T -> bool): (r: seq<T>)
    ensures |r| <= |s|
    ensures forall i :: 0 <= i < |r| ==> r[i] in s && p(r[i])
    ensures forall i :: 0 <= i < |s| && p(s[i]) ==> s[i] in r
  {
    if |s| == 0 then []
    else if p(s[0]) then [s[0]] + Filter(s[1..], p)
    else Filter(s[1..], p)
  }

  /** Filtering keeps the survivors in their original relative order. */
  lemma {:induction false} FilterIsSubsequence<T>(s: seq<T>, p: T -> bool)
    ensures IsSubsequence(Filter(s, p), s)
  {
    if |s| > 0 {
      FilterIsSubsequence(s[1..], p);
      var r := Filter(s, p);
      if p(s[0]) {
        assert r[0] == s[0] && r[1..] == Filter(s[1..], p);
      }
    }
  }

  /** Filtering with a predicate that rejects everything yields the empty list. */
  lemma {:induction false} FilterNone<T>(s: seq<T>, p: T -> bool)
    requires forall i :: 0 <= i < |s| ==> !p(s[i])
    ensures Filter(s, p) == []
  {
    if |s| > 0 {
      FilterNone(s[1..], p);
    }
  }
}

=== FILE: strings.dfy ===
/** Splitting on a separator character, as Go's `strings.Split` and JavaScript's `String.split` do
    for a one-character separator. */
module Strings {

  /** Number of occurrences of `c` in `s`. */
  function Count(s: string, c: char): nat {
    if |s| == 0 then 0 else (if s[0] == c then 1 else 0) + Count(s[1..], c)
  }

  /** Index of the first occurrence of `c` in `s`, or `|s|` when there is none. */
  function IndexOf(s: string, c: char): (i: nat)
    ensures i <= |s|
    ensures forall j :: 0 <= j < i ==> s[j] != c
    ensures i < |s| ==> s[i] == c
  {
    if |s| == 0 then 0 else if s[0] == c then 0 else 1 + IndexOf(s[1..], c)
  }

  /** The pieces between separators: `Split("a,b", ',') == ["a", "b"]`, `Split("", ',') == [""]`. */
  function Split(s: string, sep: char): (parts: seq<string>)
    ensures |parts| >= 1
    decreases |s|
  {
    var i := IndexOf(s, sep);
    if i == |s| then [s] else [s[..i]] + Split(s[i + 1..], sep)
  }

  lemma CountAppend(a: string, b: string, c: char)
    ensures Count(a + b, c) == Count(a, c) + Count(b, c)
  {
    if |a| != 0 {
      assert (a + b)[1..] == a[1..] + b;
      CountAppend(a[1..], b, c);
    } else {
      assert a + b == b;
    }
  }

  lemma CountNone(s: string, c: char)
    requires forall j :: 0 <= j < |s| ==> s[j] != c
    ensures Count(s, c) == 0
  {
    if |s| != 0 {
      CountNone(s[1..], c);
    }
  }

  /** A string splits into one more piece than it has separators. */
  lemma {:induction false} SplitLength(s: string, sep: char)
    ensures |Split(s, sep)| == Count(s, sep) + 1
    decreases |s|
  {
    var i := IndexOf(s, sep);
    CountNone(s[..i], sep);
    if i < |s| {
      assert s == s[..i] + ([s[i]] + s[i + 1..]);
      CountAppend(s[..i], [s[i]] + s[i + 1..], sep);
      CountAppend([s[i]], s[i + 1..], sep);
      SplitLength(s[i + 1..], sep);
    } else {
      assert s[..i] == s;
    }
  }

  /** A string with exactly one separator splits at that separator into its two sides. */
  lemma SplitTwo(s: string, sep: char)
    requires Count(s, sep) == 1
    ensures var i := IndexOf(s, sep);
      i < |s| && Split(s, sep) == [s[..i], s[i + 1..]]
  {
    var i := IndexOf(s, sep);
    CountNone(s[..i], sep);
    if i == |s| {
      assert false;
    }
    var tail := s[i + 1..];
    assert s == s[..i] + ([s[i]] + tail);
    CountAppend(s[..i], [s[i]] + tail, sep);
    CountAppend([s[i]], tail, sep);
    SplitLength(tail, sep);
    assert |Split(tail, sep)| == 1;
    assert IndexOf(tail, sep) == |tail|;
    assert Split(s, sep) == [s[..i]] + Split(tail, sep);
  }
}

=== FILE: tailnet_types.dfy ===
/** Values shared by the pieces of the PostgreSQL-backed tailnet coordinator. */
module TailnetTypes {
  import opened Wrappers

  /** A 128-bit UUID, read as an unsigned integer. */
  newtype Uuid = x: int | 0 <= x < 0x1_0000_0000_0000_0000_0000_0000_0000_0000

  /** The all-zero UUID (`uuid.Nil`). */
  const Nil: Uuid := 0

  /** A peer's network description (`*proto.Node`), held as its marshalled bytes. Equality of two
      nodes stands for the protobuf `Equal` comparison. */
  datatype Node = Node(raw: seq<bv8>)

  /** `CoordinateResponse_PeerUpdate_Kind`. */
  datatype Kind = NodeKind | Disconnected | Lost | ReadyForHandshake

  /** The kinds a database mapping can carry: a stored peer is either OK (NODE) or LOST. */
  type MappingKind = k: Kind | k == NodeKind || k == Lost witness NodeKind

  /** `mapping`: what one coordinator's database rows say about a peer's node, and when that row
      was last updated (`updatedAt`, in nanoseconds). */
  datatype Mapping = Mapping(peer: Uuid, coordinator: Uuid, updatedAt: int, node: Option<Node>, kind: MappingKind)
}

=== FILE: tunneler.dfy ===
/** The tunneler's cache of the latest requested state of each tunnel. Workers read it back when
    they write the tunnel to the database, so only the most recent request per tunnel is written. */
module Tunneler {
  import opened TailnetTypes

  /** A tunnel is identified by its source and destination peers. */
  datatype TKey = TKey(src: Uuid, dst: Uuid)

  /** A request to add (`active`) or remove a tunnel. An inactive request whose destination is
      `Nil` asks to remove every tunnel of the source. */
  datatype Tunnel = Tunnel(key: TKey, active: bool)

  /** `tunneler.latest`: source -> destination -> latest tunnel request. */
  type Latest = map<Uuid, map<Uuid, Tunnel>>

  /** The cache keeps every request under its own key, and never an empty inner map. */
  ghost predicate Valid(latest: Latest) {
    forall src | src in latest ::
      |latest[src]| > 0 &&
      forall dst | dst in latest[src] :: latest[src][dst].key == TKey(src, dst)
  }

  /** `tunneler.cache`: record `update` as the latest request for its tunnel. */
  function Cache(latest: Latest, update: Tunnel): (r: Latest)
    requires Valid(latest)
    ensures Valid(r)
    // every other source is untouched
    ensures forall src | src != update.key.src ::
      (src in r <==> src in latest) && (src in r ==> r[src] == latest[src])
  {
    var src, dst := update.key.src, update.key.dst;
    if update.active then Put(latest, update)
    else if dst == Nil then latest - {src}
    else if src in latest then Unset(latest, src, dst)
    else latest
  }

  /** The active branch of `cache`: store `update` under its source and destination. */
  function Put(latest: Latest, update: Tunnel): (r: Latest)
    requires Valid(latest)
    ensures Valid(r)
    ensures forall src | src != update.key.src ::
      (src in r <==> src in latest) && (src in r ==> r[src] == latest[src])
  {
    var src, dst := update.key.src, update.key.dst;
    var inner := if src in latest then latest[src] else map[];
    var inner' := inner[dst := update];
    assert dst in inner';
    latest[src := inner']
  }

  /** The inactive branch of `cache` for one destination: forget it, and forget the source too
      once it has no destination left. */
  function Unset(latest: Latest, src: Uuid, dst: Uuid): (r: Latest)
    requires Valid(latest) && src in latest
    ensures Valid(r)
    ensures forall s | s != src :: (s in r <==> s in latest) && (s in r ==> r[s] == latest[s])
  {
    var inner := latest[src] - {dst};
    if |inner| == 0 then latest - {src} else latest[src := inner]
  }

  /** `tunneler.retrieve`: the latest request for `k`, or an inactive tunnel when none is cached. */
  function Retrieve(latest: Latest, k: TKey): (t: Tunnel)
    requires Valid(latest)
    ensures t.key == k
    ensures t.active ==> k.src in latest && k.dst in latest[k.src]
  {
    if k.src in latest && k.dst in latest[k.src] then latest[k.src][k.dst] else Tunnel(k, false)
  }

  /** Any request, active or not, is read back exactly as it was cached. */
  lemma RetrieveCached(latest: Latest, update: Tunnel)
    requires Valid(latest)
    ensures Retrieve(Cache(latest, update), update.key) == update
  {
  }

  /** An inactive request for a specific destination leaves every other tunnel's latest request
      in place. */
  lemma RetrieveOthersAfterInactive(latest: Latest, update: Tunnel, k: TKey)
    requires Valid(latest) && !update.active && update.key.dst != Nil && k != update.key
    ensures Retrieve(Cache(latest, update), k) == Retrieve(latest, k)
  {
  }

  /** An inactive request with a `Nil` destination drops every tunnel of its source. */
  lemma RetrieveAfterRemoveAll(latest: Latest, update: Tunnel, dst: Uuid)
    requires Valid(latest) && !update.active && update.key.dst == Nil
    ensures update.key.src !in Cache(latest, update)
    ensures Retrieve(Cache(latest, update), TKey(update.key.src, dst)) == Tunnel(TKey(update.key.src, dst), false)
  {
  }

  /** An active request leaves every other tunnel's latest request in place. */
  lemma RetrieveOthersAfterActive(latest: Latest, update: Tunnel, k: TKey)
    requires Valid(latest) && update.active && k != update.key
    ensures Retrieve(Cache(latest, update), k) == Retrieve(latest, k)
  {
  }

  /** Caching a sequence of requests, oldest first. */
  function CacheAll(latest: Latest, updates: seq<Tunnel>): (r: Latest)
    requires Valid(latest)
    ensures Valid(r)
    decreases |updates|
  {
    if |updates| == 0 then latest else CacheAll(Cache(latest, updates[0]), updates[1..])
  }

  /** However many requests arrived before a worker reads the cache, a worker handling the key of
      the last one reads exactly that request. This is what lets the work queue coalesce repeated
      keys without losing the latest state. */
  lemma {:induction false} RetrieveSeesLast(latest: Latest, updates: seq<Tunnel>, k: TKey)
    requires Valid(latest)
    requires |updates| > 0 && updates[|updates| - 1].key == k
    ensures Retrieve(CacheAll(latest, updates), k) == updates[|updates| - 1]
    decreases |updates|
  {
    if |updates| == 1 {
      RetrieveCached(latest, updates[0]);
    } else {
      assert updates[1..][|updates[1..]| - 1] == updates[|updates| - 1];
      RetrieveSeesLast(Cache(latest, updates[0]), updates[1..], k);
    }
  }
}

=== FILE: work_queue.dfy ===
/** `workQ`: a queue of keys to work on that coalesces repeated requests for a key and lets at most
    one worker hold a key at a time. The condition variable and blocking are replaced by results
    that say whether a worker would block or was woken by cancellation. */
module WorkQueue {

  /** The queue's state under its lock. */
  datatype WorkQ<K> = WorkQ(pending: seq<K>, inProgress: set<K>)

  /** The empty queue `newWorkQ` starts with: nothing pending, nothing held. */
  function Empty<K>(): (q: WorkQ<K>)
    ensures |q.pending| == 0 && q.inProgress == {}
  {
    WorkQ([], {})
  }

  ghost predicate NoDuplicates<K>(s: seq<K>) {
    forall i, j | 0 <= i < j < |s| :: s[i] != s[j]
  }

  /** The invariant every transition keeps: a key is pending at most once. */
  ghost predicate Valid<K>(q: WorkQ<K>) {
    NoDuplicates(q.pending)
  }

  /** `workQ.enqueue`: add `key` at the end unless it is already pending. */
  function Enqueue<K(==)>(q: WorkQ<K>, key: K): (r: WorkQ<K>)
    ensures Valid(q) ==> Valid(r)
    ensures key in r.pending && r.inProgress == q.inProgress
    ensures key in q.pending ==> r == q
    ensures key !in q.pending ==> r.pending == q.pending + [key]
  {
    if key in q.pending then q else q.(pending := q.pending + [key])
  }

  /** Index of the first pending key not in progress, or `|pending|` when there is none. */
  function FirstFree<K(==)>(pending: seq<K>, inProgress: set<K>): (i: nat)
    ensures i <= |pending|
    ensures forall j | 0 <= j < i :: pending[j] in inProgress
    ensures i < |pending| ==> pending[i] !in inProgress
    decreases |pending|
  {
    if |pending| == 0 || pending[0] !in inProgress then 0
    else 1 + FirstFree(pending[1..], inProgress)
  }

  /** `workQ.workAvailable`: some pending key is not in progress. */
  function WorkAvailable<K(==)>(q: WorkQ<K>): (b: bool)
    ensures b <==> exists i :: 0 <= i < |q.pending| && q.pending[i] !in q.inProgress
  {
    FirstFree(q.pending, q.inProgress) < |q.pending|
  }

  /** What `workQ.acquire` does: return an error once the context is canceled, block while no
      work is available, or hand out a key. */
  datatype Acquisition<K> = Canceled | Blocked | Acquired(key: K, next: WorkQ<K>)

  /** `workQ.acquire`: take the first pending key not in progress and mark it in progress. */
  function Acquire<K(==)>(q: WorkQ<K>, canceled: bool): (r: Acquisition<K>)
    ensures canceled <==> r == Canceled
    ensures r == Blocked <==> !canceled && !WorkAvailable(q)
    ensures r.Acquired? ==>
      exists i :: 0 <= i < |q.pending| && q.pending[i] == r.key &&
        (forall j | 0 <= j < i :: q.pending[j] in q.inProgress) &&
        r.next.pending == q.pending[..i] + q.pending[i + 1..]
    ensures r.Acquired? ==> r.key !in q.inProgress && r.next.inProgress == q.inProgress + {r.key}
    ensures r.Acquired? && Valid(q) ==> Valid(r.next) && r.key !in r.next.pending
  {
    if canceled then Canceled
    else
      var i := FirstFree(q.pending, q.inProgress);
      if i == |q.pending| then Blocked
      else
        var next := WorkQ(q.pending[..i] + q.pending[i + 1..], q.inProgress + {q.pending[i]});
        assert Valid(q) ==> Valid(next) && q.pending[i] !in next.pending by {
          if Valid(q) {
            RemoveKeepsNoDuplicates(q.pending, i);
          }
        }
        Acquired(q.pending[i], next)
  }

  lemma RemoveKeepsNoDuplicates<K>(s: seq<K>, i: int)
    requires 0 <= i < |s| && NoDuplicates(s)
    ensures NoDuplicates(s[..i] + s[i + 1..])
    ensures s[i] !in s[..i] + s[i + 1..]
  {
    var t := s[..i] + s[i + 1..];
    forall a, b | 0 <= a < b < |t| ensures t[a] != t[b] {
      var a' := if a < i then a else a + 1;
      var b' := if b < i then b else b + 1;
      assert t[a] == s[a'] && t[b] == s[b'];
    }
    forall a | 0 <= a < |t| ensures t[a] != s[i] {
      var a' := if a < i then a else a + 1;
      assert t[a] == s[a'];
    }
  }

  /** `workQ.done`: release `key` so its pending work can be acquired again. */
  function Done<K(==)>(q: WorkQ<K>, key: K): (r: WorkQ<K>)
    ensures r.pending == q.pending
    ensures key !in r.inProgress
    ensures r.inProgress <= q.inProgress && q.inProgress - r.inProgress <= {key}
  {
    q.(inProgress := q.inProgress - {key})
  }

  /** A call a handler or a worker makes on the queue. */
  datatype Op<K> = EnqueueOp(key: K) | AcquireOp | DoneOp(key: K)

  /** The queue after a sequence of calls, and the keys handed out, in order. Acquisitions happen
      before cancellation; one that would block hands out nothing. */
  datatype Trace<K> = Trace(q: WorkQ<K>, acquired: seq<K>)

  function Run<K(==)>(q: WorkQ<K>, ops: seq<Op<K>>): (t: Trace<K>)
    decreases |ops|
  {
    if |ops| == 0 then Trace(q, [])
    else match ops[0]
      case EnqueueOp(k) => Run(Enqueue(q, k), ops[1..])
      case DoneOp(k) => Run(Done(q, k), ops[1..])
      case AcquireOp =>
        var a := Acquire(q, false);
        if a.Acquired? then
          var rest := Run(a.next, ops[1..]);
          Trace(rest.q, [a.key] + rest.acquired)
        else
          Run(q, ops[1..])
  }

  /** Every sequence of calls from a valid queue keeps it valid: no key is ever pending twice. */
  lemma {:induction false} RunKeepsValid<K>(q: WorkQ<K>, ops: seq<Op<K>>)
    requires Valid(q)
    ensures Valid(Run(q, ops).q)
    decreases |ops|
  {
    if |ops| > 0 {
      match ops[0]
      case EnqueueOp(k) => RunKeepsValid(Enqueue(q, k), ops[1..]);
      case DoneOp(k) => RunKeepsValid(Done(q, k), ops[1..]);
      case AcquireOp =>
        var a := Acquire(q, false);
        if a.Acquired? {
          RunKeepsValid(a.next, ops[1..]);
        } else {
          RunKeepsValid(q, ops[1..]);
        }
    }
  }

  /** Hence every queue reachable from the one `newWorkQ` creates is valid. */
  lemma ReachableValid<K>(ops: seq<Op<K>>)
    ensures Valid(Run(Empty(), ops).q)
  {
    RunKeepsValid(Empty(), ops);
  }

  /** A key in progress is never handed out again until its worker calls `done`, however often it
      is enqueued meanwhile: at most one worker holds a key at a time. */
  lemma {:induction false} HeldKeyNotReacquired<K>(q: WorkQ<K>, ops: seq<Op<K>>, key: K)
    requires key in q.inProgress
    requires forall i | 0 <= i < |ops| :: ops[i] != DoneOp(key)
    ensures key !in Run(q, ops).acquired
    ensures key in Run(q, ops).q.inProgress
    decreases |ops|
  {
    if |ops| > 0 {
      assert forall i | 0 <= i < |ops[1..]| :: ops[1..][i] == ops[i + 1];
      match ops[0]
      case EnqueueOp(k) => HeldKeyNotReacquired(Enqueue(q, k), ops[1..], key);
      case DoneOp(k) => HeldKeyNotReacquired(Done(q, k), ops[1..], key);
      case AcquireOp =>
        var a := Acquire(q, false);
        if a.Acquired? {
          HeldKeyNotReacquired(a.next, ops[1..], key);
        } else {
          HeldKeyNotReacquired(q, ops[1..], key);
        }
    }
  }

  /** Enqueueing a key twice is the same as enqueueing it once. */
  lemma EnqueueCoalesces<K>(q: WorkQ<K>, key: K)
    ensures Enqueue(Enqueue(q, key), key) == Enqueue(q, key)
  {
  }
}

=== FILE: wrappers.dfy ===
/** Failure-carrying values used across the model in place of nil pointers and Go error returns. */
module Wrappers {

  /** A present-or-absent value: a nullable pointer, an optional field, a missing map entry. */
  datatype Option<+T> = None | Some(value: T) {
    function GetOr(default: T): T {
      match this
      case Some(v) => v
      case None => default
    }
  }

  /** A value or an error, in place of Go's `(value, error)` pairs. */
  datatype Result<+R, +E> = Ok(value: R) | Err(error: E)
}
